=== FILE: README.md ===
# ND AllS — a Dafny model of the content pipeline

ND AllS is a browser application that takes a piece of source text through six
steps to a publishable video package:
1. titles;
2. a script;
3. SEO metadata;
4. image prompts;
5. a thumbnail;
6. a voice-over.

Then it downloads everything as one ZIP archive. Every step calls a generative-AI
service. This project models the deterministic logic around those calls and
proves properties of it:

- **WAV encoder** (`Wav`, `Bytes`): `audioBufferToWav`. It writes the 44-byte
  RIFF/WAVE header and the interleaved little-endian int16 samples. The
  quantiser is modelled as written: clamp, then the scale 32768 below -0.5 and
  32767 otherwise, then truncation toward zero. A reader for canonical files
  (`Wav.Parse`) reads the header fields and every sample back.
- **PCM decoder** (`Pcm`): `decode` (binary string to bytes) and
  `decodeAudioData`. The latter views the bytes as int16 words,
  de-interleaves them by channel and scales by 1/32768. `AudioRoundTrip`
  composes decoder and encoder in both directions.
- **Packager** (`Packager`, `Slug`, `Text`): `downloadZip`. It covers which of
  the six entries the archive holds, the text of the SEO and prompts entries,
  the WAV entry, and the archive name `ND_AllS_<slug>.zip` with its rewriting
  chain.
- **Pipeline state machine** (`Pipeline`, `Session`): the session record, the
  loading flags, the form controls and the `handle*` functions of `App.tsx`,
  as pure transitions `Step(ui, event)`. A button event carries how the
  service's promise settled.
- **Gateway helpers** (`Gateway`): what each service function does with an
  answer: the parse-failure policy, the thumbnail `data:` URI (RFC 2397) and
  the decoded speech. It also covers which fragments go into the prompts:
  the original-content branch, the style guidance, the watermark block, the
  script excerpts and the aspect ratio.
- **Configuration** (`Config`): the option lists of the form. It proves their
  consistency with the initial state, the aspect-ratio mapping and the
  script prompt. The code computes the script-section counts with
  `Array.from`; `Config.SCRIPT_SECTIONS_OPTIONS` lists the sixteen values,
  and `Config.ScriptSectionsRange` proves entry `i` equal to `i + 5`.

Notes on what the code does:
- **Quantiser.** The quantiser tests `0.5 + s < 0` to choose the scale
  32768 or 32767, then truncates toward zero with `| 0`.
- **Round trip.** A sample written and decoded again is within 2/32768 of
  its clamped value (`AudioRoundTrip.DecodeDataBytes`). More than one step
  can be lost: `AudioRoundTrip.RoundTripOverOneStep` exhibits the float32
  value 65535/65536, which comes back 3/65536 lower.
- **Audio buffers.** A Web Audio buffer always has a format `createBuffer`
  supports: 1 to 32 channels and a rate of 3000 to 768000 Hz. Every
  channel holds `length` samples. The subset type `Audio.PcmBuffer` states
  this, and `Pcm.DecodeAudioData` fails with `UnsupportedFormat` outside it.
- **SEO parse failure.** An SEO answer that does not parse rejects the
  promise, while the title and prompt services fall back to `[]`
  (`Gateway.ParseFailurePolicy`).

## Model

| member | source | states |
|---|---|---|
| Bytes.I16At | services/geminiService.ts:22 | an `Int16Array` element read from two little-endian bytes lies in [-32768, 32767] |
| Bytes.LE16 | utils/fileUtils.ts:14-17 | `setUint16(pos, v, true)` writes two bytes that read back as `v` modulo 2^16 |
| Bytes.LE32 | utils/fileUtils.ts:19-22 | `setUint32(pos, v, true)` writes four bytes that read back as `v` modulo 2^32 |
| Bytes.I16RoundTrip | utils/fileUtils.ts:49 | a sample stored by `setInt16` is read back unchanged by the `Int16Array` view |
| Text.Tokens | App.tsx:82 | the words of `split(/\s+/).filter(Boolean)` are non-empty and free of white space |
| Text.TokensCoverText | App.tsx:82 | the words hold exactly the non-space characters of the input, in order |
| Text.TokensOfJoin | App.tsx:227 | the word count predicate sees exactly the words of a space-joined text |
| Text.Split | services/geminiService.ts:241 | `size.split('x')` always yields at least one piece |
| Text.SplitJoin | utils/fileUtils.ts:73 | `split(sep)` undoes `join(sep)` when no piece holds the separator's first character |
| Text.FreeOfAbsent | utils/fileUtils.ts:73 | a text in which a separator's first character does not occur is free of that separator |
| Text.Prefix | services/geminiService.ts:166 | `substring(0, n)` is a prefix of length n or the whole text, whichever is shorter |
| Text.PrefixFacts | services/geminiService.ts:166 | a text no longer than `n` is its own excerpt, and cutting twice changes nothing |
| Text.TrimStart | App.tsx:263 | `parseInt` skips leading white space: the rest is no longer and does not start with a space |
| Text.LeadingDigits | App.tsx:263 | the digits `parseInt` consumes form the longest run of leading digits |
| Text.DecimalValueShow | App.tsx:264 | the decimal rendering of a number an `<option>` shows has that number as its value |
| Text.ParseIntShow | App.tsx:263-264 | `parseInt(String(n), 10)` reads back `n`: a numeric select stores the number its option shows |
| Text.ParseIntDigits | App.tsx:284 | a non-empty run of digits parses as its decimal value |
| Pcm.DecodeBinary | services/geminiService.ts:6-14 | `decode` yields exactly one byte per character of the binary string |
| Pcm.BinaryString | services/geminiService.ts:7 | an `atob` result has one character of code below 256 per byte |
| Pcm.DecodeBinaryString | services/geminiService.ts:6-14 | `decode` recovers every byte of a binary string |
| Pcm.BinaryStringDecode | services/geminiService.ts:6-14 | on a binary string `decode` loses nothing |
| Pcm.DecodeAudioData | services/geminiService.ts:16-33 | an odd byte count, zero channels, a format `createBuffer` does not support (a rate outside 3000..768000 Hz or more than 32 channels) or zero frames fail; otherwise the buffer has the given rate, the channel count and `(bytes/2)/C` frames |
| Pcm.WholeFramesFit | services/geminiService.ts:22-24 | the frames given to `createBuffer` never reach past the words of the view |
| Pcm.DecodedSample | services/geminiService.ts:29 | sample `[c][i]` is int16 word `i*C + c` divided by 32768 |
| Pcm.DecodedRange | services/geminiService.ts:29 | every decoded sample lies in [-1, 32767/32768] |
| Wav.Clamp | utils/fileUtils.ts:47 | `Math.max(-1, Math.min(1, x))` lies in [-1, 1], is `x` inside it and saturates outside |
| Wav.Trunc | utils/fileUtils.ts:48 | the bitwise-or with 0 truncates toward zero |
| Wav.Quantise | utils/fileUtils.ts:47-48 | every quantised sample is an int16 |
| Wav.QuantiseFullScale | utils/fileUtils.ts:47-48 | 1.0 gives 32767, -1.0 gives -32768, 0.0 gives 0, and out-of-range input saturates |
| Wav.QuantiseMonotone | utils/fileUtils.ts:47-48 | a larger sample never quantises lower, across the switch of scale at -0.5 too |
| Wav.QuantiseError | utils/fileUtils.ts:47-48 | the quantised value is less than 2 steps from 32768 times the clamped sample |
| Wav.SampleBytes | utils/fileUtils.ts:47-50 | the two bytes of one sample read back as its quantised value |
| Wav.FrameBytes | utils/fileUtils.ts:46-51 | a frame holds its channels in channel order, two bytes each |
| Wav.DataBytes | utils/fileUtils.ts:45-53 | the data section is `frames * channels * 2` bytes |
| Wav.RiffHeader | utils/fileUtils.ts:25-27 | the RIFF part is 12 bytes |
| Wav.RiffHeaderFields | utils/fileUtils.ts:25-27 | bytes 0..3 are "RIFF", 4..7 the file length minus 8, and 8..11 "WAVE" |
| Wav.FmtChunk | utils/fileUtils.ts:29-36 | the `fmt ` chunk is 24 bytes |
| Wav.FmtChunkFields | utils/fileUtils.ts:29-36 | the chunk holds "fmt ", size 16, format 1, C, R, byte rate `R*2*C`, block align `2*C` and 16 bits |
| Wav.DataChunkHeader | utils/fileUtils.ts:38-39 | the data chunk header is 8 bytes |
| Wav.DataChunkHeaderFields | utils/fileUtils.ts:38-39 | it holds "data" and the file length minus 44 |
| Wav.Header | utils/fileUtils.ts:24-39 | the header is exactly 44 bytes |
| Wav.HeaderFields | utils/fileUtils.ts:24-39 | every header field sits at its fixed offset |
| Wav.RiffTags | utils/fileUtils.ts:25-27 | the numbers 0x46464952 and 0x45564157 written little-endian are the ASCII tags "RIFF" and "WAVE" |
| Wav.FmtTag | utils/fileUtils.ts:29 | 0x20746d66 written little-endian is "fmt " |
| Wav.DataTag | utils/fileUtils.ts:38 | 0x61746164 written little-endian is "data" |
| Wav.Encode | utils/fileUtils.ts:4-56 | the file is `44 + frames * channels * 2` bytes |
| Wav.SampleLayout | utils/fileUtils.ts:41-53 | sample `k` of frame `i` is the int16 at byte `2*(i*C + k)` of the data section |
| Wav.EncodedSample | utils/fileUtils.ts:41-53 | sample `k` of frame `i` is the little-endian int16 at offset `44 + 2*(i*C + k)` of the file |
| Wav.EncodedHeader | utils/fileUtils.ts:24-39 | the file starts with the header for its own length |
| Wav.EncodedData | utils/fileUtils.ts:41-53 | after the header come exactly the interleaved frames |
| Wav.HeaderIsCanonical | utils/fileUtils.ts:24-39 | the header the encoder writes is a canonical 16-bit PCM header declaring C and R |
| Wav.CanonicalFromFields | utils/fileUtils.ts:24-39 | a header with the tags and fields at their offsets is canonical |
| Wav.Parse | utils/fileUtils.ts:4-56 | a canonical file reads back as C >= 1 channels and whole frames covering the bytes after the header |
| Wav.ParsedData | utils/fileUtils.ts:45-53 | the samples read back are the int16 words after the header, in order |
| Wav.ParseCanonical | utils/fileUtils.ts:24-39 | a file that starts with the header for its own length and holds whole frames parses |
| Wav.EncodedHeaderInfo | utils/fileUtils.ts:24-39 | an encoded buffer reads back with its channel count, sample rate and frame count |
| Wav.ParseEncode | utils/fileUtils.ts:4-56 | reading back an encoded buffer gives its rate, channels and frames and, at every frame and channel, the quantised sample |
| AudioRoundTrip.Requantise | utils/fileUtils.ts:47-48 | re-encoding a decoded word moves it at most one step, and leaves it unchanged exactly for 0 and for words below -16384 |
| AudioRoundTrip.QuantiseScaled | services/geminiService.ts:29 | the quantiser applied to a decoded word `k / 32768` gives `Requantise(k)` |
| AudioRoundTrip.RoundTripOverOneStep | utils/fileUtils.ts:47-48 | the float32 sample 65535/65536 quantises to 32766 and decodes back exactly 3/65536 lower, more than one step |
| AudioRoundTrip.DecodeThenQuantise | services/geminiService.ts:16-33 | every sample of decoded speech re-quantises to its word within one step |
| AudioRoundTrip.DecodeThenEncode | services/geminiService.ts:16-33 | decoded speech written as WAV reads back with its rate, channels, frames and every word within one step |
| AudioRoundTrip.EncodeThenDecode | utils/fileUtils.ts:4-56 | the data section of an encoded buffer decodes with its rate, channel count and frame count |
| AudioRoundTrip.DecodeDataBytes | utils/fileUtils.ts:41-53 | every sample written and decoded again is the scaled quantised value, less than 2/32768 from the clamped original |
| AudioRoundTrip.DecodedDataSample | services/geminiService.ts:29 | the decoder reads the quantised original at each sample of the data section |
| Slug.Filter | utils/fileUtils.ts:86 | the kept characters all satisfy the test, and there are no more of them than before |
| Slug.LowerChar | utils/fileUtils.ts:87 | `A`–`Z` become the same letter in `a`–`z`, U+212A becomes `k`, U+0130 becomes `i` and U+0307, `Đ` becomes `đ`, and every other character is kept |
| Slug.Lower | utils/fileUtils.ts:87 | no upper-case letter is left, and a text without U+0130 keeps its length with each character replaced by its lower case |
| Slug.ReplaceDStroke | utils/fileUtils.ts:88 | every `đ` becomes `d` and every other character stays where it was |
| Slug.Hyphenate | utils/fileUtils.ts:89 | no white space is left, and the text does not grow |
| Slug.CollapseDashes | utils/fileUtils.ts:91 | no `--` is left; the first character and every character other than `-` are kept in order |
| Slug.TrimLeadingDashes | utils/fileUtils.ts:92 | the input is a run of `-` followed by the result, which does not start with `-` |
| Slug.TrimTrailingDashes | utils/fileUtils.ts:93 | the input is the result followed by a run of `-`, and the result does not end with `-` |
| Slug.LowerConcat | utils/fileUtils.ts:87 | lowercasing a concatenation gives the concatenation of the lower cases |
| Slug.HyphenateRun | utils/fileUtils.ts:89 | a word, then a run of white space, then a non-space: the word is kept and the run becomes exactly one `-` |
| Slug.CollapseRun | utils/fileUtils.ts:91 | a dash-free word, then a run of `-`, then something else: the word is kept and the run becomes exactly one `-` |
| Slug.SlugOfWords | utils/fileUtils.ts:85-93 | lower-case words joined by single spaces slug to the same words joined by single dashes |
| Slug.KeptSlugChars | utils/fileUtils.ts:90 | after the non-word filter only `[a-z0-9_-]` remains |
| Slug.CollapseShape | utils/fileUtils.ts:91 | after the collapse no two `-` are adjacent |
| Slug.TrimLeadingShape | utils/fileUtils.ts:92 | trimming the leading dashes keeps the alphabet and the single dashes |
| Slug.TrimTrailingShape | utils/fileUtils.ts:93 | trimming the trailing dashes yields a slug |
| Slug.SlugifyShape | utils/fileUtils.ts:85-93 | the chain yields only `[a-z0-9_-]`, no `--`, and no `-` at either end |
| Slug.Slugify | utils/fileUtils.ts:85-93 | the slug of any decomposed title has the slug shape; where its dashes fall is stated by `Slug.SlugOfWords`, `Slug.HyphenateRun` and `Slug.CollapseRun` |
| Slug.HyphenateWords | utils/fileUtils.ts:89 | hyphenation keeps every word character |
| Slug.KeptWords | utils/fileUtils.ts:90 | the non-word filter keeps every word character |
| Slug.CollapseWords | utils/fileUtils.ts:91 | collapsing dashes keeps every word character |
| Slug.TrimLeadingWords | utils/fileUtils.ts:92 | trimming leading dashes keeps every word character |
| Slug.TrimTrailingWords | utils/fileUtils.ts:93 | trimming trailing dashes keeps every word character |
| Slug.SlugWords | utils/fileUtils.ts:85-93 | the slug's letters, digits and `_` are exactly those of the unmarked, lowercased title, in order |
| Slug.SlugWithoutWords | utils/fileUtils.ts:92-93 | a slug-alphabet text without word characters is all dashes |
| Slug.SlugEmpty | utils/fileUtils.ts:85-93 | the slug is empty exactly when the prepared title has no word character |
| Slug.SlugIdempotent | utils/fileUtils.ts:85-93 | slugifying a slug gives it back |
| Slug.ContentIsSlug | utils/fileUtils.ts:93 | the fallback `content` has the slug shape |
| Slug.TitleSlug | utils/fileUtils.ts:85-93 | the slug is non-empty and slug-shaped, `content` without a title, and the title's slug when that is non-empty |
| Slug.ArchiveName | utils/fileUtils.ts:95 | the name is `ND_AllS_`, then the title slug (non-empty and slug-shaped, `content` without a title), then `.zip` |
| Config.ScriptSectionsRange | constants.ts:12 | the section counts are 16 ascending values, entry `i` being `i + 5`, so exactly 5..20 |
| Config.OptionsDistinct | constants.ts:1-32 | title counts are [3,5,7,10] and words per section [500,700,1000,1500], both ascending; no list offers a value twice |
| Session.Initial | App.tsx:12-19 | the session starts with no input, titles, script, SEO, prompts, thumbnail or voice-over |
| Session.InitialConfigValid | App.tsx:12-19 | each default of the initial state is one of its select's options |
| Gateway.ListReply | services/geminiService.ts:88-95 | for the title and image-prompt services (also lines 231-237): a failed call rejects; an unparsable answer gives `[]`; a parsed answer is returned |
| Gateway.ScriptReply | services/geminiService.ts:152-157 | the script is the answer's text; a failed call rejects |
| Gateway.SeoReply | services/geminiService.ts:194-195 | the promise rejects exactly when the call fails or the answer does not parse |
| Gateway.ParseFailurePolicy | services/geminiService.ts:88-237 | parse failures give `[]` for titles and prompts but reject for SEO |
| Gateway.ThumbnailReply | services/geminiService.ts:303-308 | the result is a URI exactly when the answer has non-empty image bytes, `null` otherwise |
| Gateway.DataUriPayload | services/geminiService.ts:305 | a recognised URI is the JPEG base64 prefix followed by the payload |
| Gateway.ThumbnailPayload | services/geminiService.ts:303-306 | the thumbnail URI reads back as exactly the image bytes of the answer |
| Gateway.SpeechReply | services/geminiService.ts:325-336 | a failed call rejects; no inline audio gives `null`; otherwise it rejects exactly when `atob` or the 24 kHz mono decoding fails, and resolves to the decoded buffer when both succeed |
| Gateway.SpeechShape | services/geminiService.ts:325-336 | decoded speech has rate 24000, one channel and one frame per two bytes |
| Gateway.Dimensions | services/geminiService.ts:241-242 | a size without `x` has no second part, so its height is NaN and only the width is parsed |
| Gateway.AspectRatio | services/geminiService.ts:241-242 | the ratio asked for is one of 16:9, 9:16 and 1:1 |
| Gateway.AspectRatioOfSize | services/geminiService.ts:241-242 | `WxH` asks for 16:9 when W > H, 9:16 when W < H, and 1:1 when they are equal |
| Gateway.ThumbnailSizeLabels | constants.ts:20-25 | every size is `WxH` with positive sides and its label names the ratio the image service is asked for |
| Gateway.Guidance | services/geminiService.ts:244-261 | without a sample the paragraph carries the chosen style; with one, the vision answer itself or, when the vision call fails, the file's name and the chosen style |
| Gateway.ScriptRequest | services/geminiService.ts:99-126 | the original-content branch is taken exactly for a non-empty original text, which it quotes |
| Gateway.CustomizationModesDescribed | constants.ts:16 | the three customization options are exactly the three modes the script prompt explains |
| Gateway.SeoRequest | services/geminiService.ts:160-166 | the SEO prompt quotes the first 4000 characters of the script, all of it when shorter |
| Gateway.ThumbnailRequest | services/geminiService.ts:263-291 | the watermark block appears exactly when enabled with non-empty text; the summary is a prefix of the script of at most 200 characters, the whole script exactly when it is at most 200 long |
| Pipeline.Guard | App.tsx:55-161 | the check each handler makes before calling the service: input text for titles, a title for script and thumbnail, a script for prompts and voice, both for SEO; related to the buttons by EnabledPassesGuard and Sent |
| Pipeline.Enabled | App.tsx:267-438 | a button is enabled when its loading flag is down and, for script, SEO, prompts, thumbnail and voice, the field it needs is present; related to the guards by EnabledPassesGuard |
| Pipeline.Apply | App.tsx:37-421 | the `onChange` handlers: choosing a file clears the text, typing clears the file, and each select stores its value (`parseInt` for the numeric ones); framed by EditFrame |
| Pipeline.Step | App.tsx:26-225 | an event is a form edit, a button press handled by its `handle*` function, or the expiry of the notification timer; framed by StepFrame |
| Pipeline.SetBusy | App.tsx:59 | setting one loading flag changes that flag and no other |
| Pipeline.LoadingExtensional | types.ts:49-58 | the eight flags determine the loading record |
| Pipeline.Diff | types.ts:12-47 | two sessions differ exactly when some field differs |
| Pipeline.FieldsDetermineState | types.ts:12-47 | sessions that agree on every field are equal |
| Pipeline.OnTitles | App.tsx:54-69 | empty input is refused with nothing touched; a failure changes nothing but the flag and the notice; a result replaces the title list only |
| Pipeline.OnScript | App.tsx:75-98 | without a selected title nothing happens but the notice; a failure keeps the session; a result replaces the script only |
| Pipeline.OnSeo | App.tsx:100-115 | SEO needs a title and a script; a failure keeps the session; a result replaces the metadata only |
| Pipeline.OnPrompts | App.tsx:117-132 | prompts need a script; a failure keeps the session; a result replaces the prompt list only |
| Pipeline.OnThumbnail | App.tsx:134-158 | a thumbnail needs a title; a result, `null` included, replaces the thumbnail only |
| Pipeline.OnVoice | App.tsx:160-179 | a voice-over needs a script; a `null` result keeps the previous audio and notifies; a buffer replaces the audio only |
| Pipeline.OnDemo | App.tsx:198-213 | the demo never changes the session and releases its flag |
| Pipeline.OnDownload | App.tsx:215-225 | the download never changes the session; a throw is reported as a failure |
| Pipeline.EditFrame | App.tsx:245-421 | every form control writes only its own fields |
| Pipeline.PressFrame | App.tsx:54-225 | every button writes at most the field its result is stored in |
| Pipeline.StepFrame | App.tsx:37-225 | no event writes a field outside its own set |
| Pipeline.StepLoading | App.tsx:54-225 | a refused call never touches the loading flags; a guarded call ends with its own flag down and the others as they were |
| Pipeline.InputEvents | App.tsx:37-73 | choosing a step-1 file clears the text, typing clears the file, and selecting a title sets it and nothing else |
| Pipeline.OriginalContent | App.tsx:82 | the input is passed as original content exactly when it has more than 50 words |
| Pipeline.OriginalContentBranch | App.tsx:82-90 | the script is developed from the input exactly when the customization selector is enabled |
| Pipeline.Sent | App.tsx:54-225 | a request goes out exactly for a button whose guard passes |
| Pipeline.ThumbnailPromptOf | App.tsx:141-150 | the thumbnail prompt carries the watermark exactly when enabled with text, and the overall style exactly without a sample |
| Pipeline.ScriptNeedsTitle | App.tsx:75-79 | without a selected title the script button makes no call and changes only the notice |
| Pipeline.TitlesParseFailure | services/geminiService.ts:88-95 | an unparsable titles answer empties the title list and keeps the selected title |
| Pipeline.SeoParseFailure | App.tsx:106-111 | an unparsable SEO answer is reported as a failure and keeps the previous metadata |
| Pipeline.StepCoherent | App.tsx:75-91 | a script exists only for a selected title, after any event |
| Pipeline.RunCoherent | App.tsx:75-91 | a script exists only for a selected title, after any sequence of events |
| Pipeline.RunIdle | App.tsx:54-225 | with handlers run one at a time, nothing is loading between events |
| Pipeline.EnabledPassesGuard | App.tsx:306-427 | every enabled button but the titles button passes its handler's guard |
| Pipeline.TitlesButtonRefuses | App.tsx:267 | the titles button is enabled on an empty input, which its handler refuses |
| Pipeline.Shown | App.tsx:264 | the option texts of a numeric select are the decimal renderings of its values |
| Pipeline.ShownParses | App.tsx:263-264 | a numeric select set to one of its option texts stores that option |
| Pipeline.UnchangedConfig | App.tsx:257-421 | an event writing no select leaves every select as it was |
| Pipeline.SelectConfigValid | App.tsx:257-421 | a select set to one of its options keeps every select valid |
| Pipeline.EditConfigValid | App.tsx:245-421 | a form control the page offers keeps every select valid |
| Pipeline.PressConfigValid | App.tsx:54-225 | no button changes a select |
| Pipeline.StepConfigValid | App.tsx:37-225 | any event the page can produce keeps every select valid |
| Pipeline.RunConfigValid | App.tsx:37-225 | every select holds one of its options along any trace the page can produce |
| Pipeline.Reachable | App.tsx:12-22 | from the initial state, along any producible trace, the selects stay valid, a script implies a title, and nothing stays loading |
| Packager.Package | utils/fileUtils.ts:59-95 | the archive holds the collected entries; its name is `ND_AllS_`, the selected title's slug and `.zip`, and `ND_AllS_content.zip` without a title |
| Packager.NamesDistinct | utils/fileUtils.ts:63-82 | the six entry names are distinct |
| Packager.FindCollected | utils/fileUtils.ts:62-83 | under distinct names, the entry called `names[k]` is exactly slot `k`'s content |
| Packager.CollectedName | utils/fileUtils.ts:62-83 | every collected entry bears the name of a filled slot |
| Packager.CollectUnique | utils/fileUtils.ts:62-83 | collected entries have distinct names |
| Packager.Slots | utils/fileUtils.ts:62-83 | one slot per entry name, in the order the entries are added |
| Packager.EntryOfSlot | utils/fileUtils.ts:62-83 | the entry called `NAMES[k]` exists exactly when slot `k` is filled, and holds its content |
| Packager.EntryNames | utils/fileUtils.ts:62-83 | no two entries share a name, and each name is one of the six |
| Packager.ArchiveEntries | utils/fileUtils.ts:62-83 | each entry is present exactly when its slice is populated |
| Packager.TextEntries | utils/fileUtils.ts:62-79 | the title, script, SEO, prompts and thumbnail entries hold the title, the script, the SEO layout, the joined prompts and the thumbnail URI |
| Packager.InitialArchiveEmpty | utils/fileUtils.ts:62-83 | a fresh session packs nothing |
| Packager.SeoText | utils/fileUtils.ts:69 | the SEO entry opens with `Description:` and a line break, ends with the tags, and adds 33 characters of labels and line breaks |
| Packager.PromptsText | utils/fileUtils.ts:73 | no prompts give the empty text and a single prompt is the text itself; PromptsRoundTrip reads the prompts back |
| Packager.SeoTextLines | utils/fileUtils.ts:69 | the SEO entry is the eight lines Description:, d, blank, Hashtags:, h, blank, Tags:, t |
| Packager.SeoRoundTrip | utils/fileUtils.ts:69 | single-line SEO fields read back unchanged from the entry |
| Packager.PromptsRoundTrip | utils/fileUtils.ts:73 | single-line prompts read back one by one, in order, from the entry |
| Packager.VoiceEntry | utils/fileUtils.ts:80-83 | the voice entry is the WAV encoding of the voice-over, `44 + frames*channels*2` bytes |

## Left out

- The generative-AI calls themselves (`ai.models.generateContent` and `generateImages`). They are a remote service: each is a `Call` parameter that answers or fails. The natural-language wording of the prompts is left out too; only the fragments that depend on the inputs are modelled.
- `atob` and `JSON.parse`. These are library functions. `atob` is a parameter of `Gateway.SpeechReply` (`None` when it throws). A parsed answer is an `Option`, `None` when `JSON.parse` throws.
- Unicode NFD normalisation is a parameter of the slug functions (`nfd`).
- Slug.LowerChar: gives the lower case for only four kinds of character: ASCII `A`–`Z`, the Kelvin sign U+212A (to `k`), U+0130 (to `i` and U+0307) and `Đ` (to `đ`). Every other character is kept as it is, where `toLowerCase` may change it. This does not change the slug. A-Z, U+212A and U+0130 are the only characters whose lower case contains `a`–`z`, `0`–`9` or `_`. `Đ` is the only one whose lower case is `đ`. No lower case is white space or `-`. So whatever `toLowerCase` does to any other character, the later `\w` filter drops it just the same.
- Text.Prefix: counts Unicode scalar values where `substring` counts UTF-16 code units. The SEO and thumbnail excerpts (`Gateway.SeoRequest`, `Gateway.ThumbnailRequest`) therefore differ from the code's for scripts holding characters outside the Basic Multilingual Plane. The code's excerpt is shorter there and may end in half a surrogate pair.
- The supported formats (`Audio.Supported`) take the rates 3000..768000 Hz and up to 32 channels, which current browsers accept. The Web Audio standard requires only 8000..96000 Hz and lets implementations accept more, so the bounds vary by browser; the code itself only asks for 24 kHz mono.
- The sample rate of an `AudioBuffer` is a float that `setUint32` truncates. It is modelled as a whole number of Hz (`Audio.AudioBuffer.sampleRate`).
- Browser I/O is left out:
  - JSZip's archive bytes and `generateAsync`;
  - the `Blob` and `fetch` of the thumbnail URI (the entry holds the URI);
  - DOM download links;
  - `FileReader`, which becomes the `InputFileRead` event;
  - `AudioContext`, `playVoice` and `console.error`.
- JSX rendering, `CopyButton` and `StepCard`.
- The three-second notification timer is the `NoticeExpired` event.
- Notification texts are replaced by the `Notice` constructors.
- Overlapping asynchronous handlers and their last-write-wins races. Handlers are modelled as running one after another, from invocation to the end of their `finally` block.
- NaN and infinite samples, and float32 rounding. Samples are `real`. For int16 words divided by 32768, the float value is exact. The encoder's contracts hold for every real, so they cover every float32 sample.
- `numPrompts` is a free number input (`min`/`max` are advisory), so it is not among the selects whose validity `Session.SelectsValid` states.
- Wav.ParseEncode: proved for buffers whose file length does not wrap modulo 2^32 (`Wav.Fits`), because the encoder truncates larger sizes into the header. The rate and channel fields always fit, since every buffer has a supported format.
- Packager.SeoRoundTrip: proved for single-line fields, because a description holding a blank line followed by `Hashtags:` cannot be told apart from the layout. `Packager.SeoTextLines` states the layout for all fields.
- Packager.PromptsRoundTrip: proved for prompts without line breaks, because a prompt holding a blank line cannot be told apart from the separator.
- AudioRoundTrip.EncodeThenDecode: states the shape of the decoded buffer, while `AudioRoundTrip.DecodeDataBytes` states every sample.

=== FILE: audio.dfy ===
/** The Web Audio `AudioBuffer` the encoder reads and the decoder builds. */
module Audio {

  /**
   * `sampleRate` in Hz, `length` in frames, and one array of samples per
   * channel. The browser stores samples as Float32 values and the rate as a
   * float; here samples are reals, without float32 rounding, and the rate is
   * a whole number of Hz.
   */
  datatype AudioBuffer = AudioBuffer(sampleRate: nat, length: nat, channels: seq<seq<real>>)

  /** The range of sample rates, in Hz, and the most channels that `createBuffer` accepts in current browsers. */
  const MIN_SAMPLE_RATE: nat := 3000
  const MAX_SAMPLE_RATE: nat := 768000
  const MAX_CHANNELS: nat := 32

  /** The formats `createBuffer` accepts; any other throws `NotSupportedError`. */
  predicate Supported(sampleRate: nat, numChannels: nat)
  {
    MIN_SAMPLE_RATE <= sampleRate <= MAX_SAMPLE_RATE && 1 <= numChannels <= MAX_CHANNELS
  }

  /** What the browser guarantees of every AudioBuffer: a supported format, and all channels of `length` samples. */
  predicate WellFormed(b: AudioBuffer)
  {
    && Supported(b.sampleRate, |b.channels|)
    && forall c :: 0 <= c < |b.channels| ==> |b.channels[c]| == b.length
  }

  type PcmBuffer = b: AudioBuffer | WellFormed(b) witness AudioBuffer(24000, 0, [[]])

  lemma MulMono(a: nat, b: nat, c: nat)
    requires a <= b
    ensures a * c <= b * c
  {
    var d := b - a;
    assert b * c == a * c + d * c;
  }

  /**
   * Frames are stored interleaved: sample `k` of frame `i` of a `c`-channel
   * buffer is word `i * c + k`, and it lies inside the first `n` frames.
   */
  lemma FrameIndex(i: nat, k: nat, n: nat, c: nat)
    requires i < n && k < c
    ensures 0 <= i * c && i * c + k < n * c
    ensures (i + 1) * c <= n * c
  {
    MulMono(0, i, c);
    MulMono(i + 1, n, c);
    assert (i + 1) * c == i * c + c;
  }
}

=== FILE: audio_roundtrip.dfy ===
/**
 * The decoder and the encoder composed. Speech arrives as int16 words,
 * becomes samples `k / 32768`, and the encoder's quantiser turns each sample
 * back into an int16; a buffer written by the encoder and decoded again
 * keeps every sample to within 2/32768 of its clamped value.
 */
module AudioRoundTrip {
  import opened Wrappers
  import opened Bytes
  import opened Audio
  import opened Wav
  import opened Pcm

  /**
   * The int16 the encoder writes for the decoded word `k`. Below -16384 the
   * scale 32768 undoes the decoder exactly; elsewhere the scale 32767 and the
   * truncation toward zero move every nonzero word one step toward zero.
   */
  function Requantise(k: int): (q: int)
    requires -0x8000 <= k < 0x8000
    ensures -1 <= q - k <= 1
    ensures q == k <==> k == 0 || k < -0x4000
    ensures -0x8000 <= q < 0x8000
  {
    if k == 0 || k < -0x4000 then k
    else if k > 0 then k - 1
    else k + 1
  }

  /**
   * The encoder's two scales cost more than one step of 1/32768 on the way
   * back: the float32 value 65535/65536 is written as 32766 and decodes
   * three half-steps lower.
   */
  lemma RoundTripOverOneStep()
    ensures Quantise(65535.0 / 65536.0) == 32766
    ensures 65535.0 / 65536.0 - Scaled(Quantise(65535.0 / 65536.0)) == 3.0 / 65536.0 > 1.0 / 32768.0
  {
    assert 65535.0 / 65536.0 * 32767.0 == 2147385345.0 / 65536.0;
    assert Trunc(2147385345.0 / 65536.0) == 32766;
  }

  /** The quantiser applied to a decoded word gives exactly `Requantise`. */
  lemma QuantiseScaled(k: int)
    requires -0x8000 <= k < 0x8000
    ensures Quantise(Scaled(k)) == Requantise(k)
  {
    var s := Scaled(k);
    assert Clamp(s) == s;
    if k < -0x4000 {
      assert s * 32768.0 == k as real;
    } else {
      var y := s * 32767.0;
      assert y == k as real - s;
      if k > 0 {
        assert (k - 1) as real <= y < k as real;
      } else if k < 0 {
        assert k as real < y <= (k + 1) as real;
      }
    }
  }

  /**
   * Decoding speech and quantising the buffer again, as the encoder does,
   * gives at sample `i` of channel `c` the requantised word `i * C + c`.
   */
  lemma DecodeThenQuantise(data: seq<byte>, sampleRate: nat, numChannels: nat)
    requires DecodeAudioData(data, sampleRate, numChannels).Success?
    ensures var b := DecodeAudioData(data, sampleRate, numChannels).value;
            forall c, i :: 0 <= c < numChannels && 0 <= i < b.length ==>
              Quantise(b.channels[c][i]) == Requantise(Word(data, numChannels, b.length, i, c))
  {
    var b := DecodeAudioData(data, sampleRate, numChannels).value;
    forall c, i | 0 <= c < numChannels && 0 <= i < b.length
      ensures Quantise(b.channels[c][i]) == Requantise(Word(data, numChannels, b.length, i, c))
    {
      DecodedSample(data, sampleRate, numChannels, c, i);
      QuantiseScaled(Word(data, numChannels, b.length, i, c));
    }
  }

  /**
   * Decoding speech and encoding it as a WAV file: the file reads back with
   * the decoder's shape, and sample `c` of frame `i` is the requantised word.
   */
  lemma DecodeThenEncode(data: seq<byte>, sampleRate: nat, numChannels: nat)
    requires DecodeAudioData(data, sampleRate, numChannels).Success?
    requires |data| + HEADER_SIZE < U32_RANGE
    ensures var b := DecodeAudioData(data, sampleRate, numChannels).value;
            && Parse(Encode(b)).Some?
            && var info := Parse(Encode(b)).value;
            && info.channels == numChannels && info.sampleRate == sampleRate && info.frames == b.length
            && forall i, c :: 0 <= i < b.length && 0 <= c < numChannels ==>
                 Sample(info, i, c) == Requantise(Word(data, numChannels, b.length, i, c))
  {
    var b := DecodeAudioData(data, sampleRate, numChannels).value;
    assert Fits(b);
    ParseEncode(b);
    DecodeThenQuantise(data, sampleRate, numChannels);
  }

  /**
   * Encoding a buffer and decoding the data section of the file gives back a
   * buffer of the same shape whose every sample is the quantised original at
   * the decoder's scale, within 2/32768 of the clamped original.
   */
  lemma EncodeThenDecode(b: PcmBuffer)
    requires b.length >= 1
    ensures var r := DecodeAudioData(Encode(b)[HEADER_SIZE..], b.sampleRate, |b.channels|);
            && r.Success?
            && r.value.sampleRate == b.sampleRate
            && r.value.length == b.length
            && |r.value.channels| == |b.channels|
            && forall c, i :: 0 <= c < |b.channels| && 0 <= i < b.length ==>
                 && r.value.channels[c][i] == Scaled(Quantise(b.channels[c][i]))
                 && -2.0 / 32768.0 < r.value.channels[c][i] - Clamp(b.channels[c][i]) < 2.0 / 32768.0
  {
    EncodedData(b);
    DecodeDataBytes(b);
  }

  lemma DecodeDataBytes(b: PcmBuffer)
    requires b.length >= 1
    ensures var r := DecodeAudioData(DataBytes(b.channels, b.length), b.sampleRate, |b.channels|);
            && r.Success?
            && r.value.sampleRate == b.sampleRate
            && r.value.length == b.length
            && |r.value.channels| == |b.channels|
            && forall c, i :: 0 <= c < |b.channels| && 0 <= i < b.length ==>
                 && r.value.channels[c][i] == Scaled(Quantise(b.channels[c][i]))
                 && -2.0 / 32768.0 < r.value.channels[c][i] - Clamp(b.channels[c][i]) < 2.0 / 32768.0
  {
    var C, n := |b.channels|, b.length;
    var data := DataBytes(b.channels, n);
    FrameCount(|data|, C, n);
    var r := DecodeAudioData(data, b.sampleRate, C);
    forall c, i | 0 <= c < C && 0 <= i < n
      ensures r.value.channels[c][i] == Scaled(Quantise(b.channels[c][i]))
      ensures -2.0 / 32768.0 < r.value.channels[c][i] - Clamp(b.channels[c][i]) < 2.0 / 32768.0
    {
      DecodedDataSample(b, c, i);
      QuantiseError(b.channels[c][i]);
    }
  }

  /** The decoder reads, at sample `i` of channel `c` of the data section, the quantised original. */
  lemma DecodedDataSample(b: PcmBuffer, c: nat, i: nat)
    requires c < |b.channels| && i < b.length
    requires DecodeAudioData(DataBytes(b.channels, b.length), b.sampleRate, |b.channels|).Success?
    requires DecodeAudioData(DataBytes(b.channels, b.length), b.sampleRate, |b.channels|).value.length == b.length
    ensures DecodeAudioData(DataBytes(b.channels, b.length), b.sampleRate, |b.channels|).value.channels[c][i]
            == Scaled(Quantise(b.channels[c][i]))
  {
    var data := DataBytes(b.channels, b.length);
    FrameIndex(i, c, b.length, |b.channels|);
    DecodedSample(data, b.sampleRate, |b.channels|, c, i);
    SampleLayout(b.channels, b.length, i, c, i * |b.channels| + c);
  }
}

=== FILE: bytes.dfy ===
/**
 * Bytes as the browser's typed arrays see them: the little-endian writes a
 * DataView performs (`setUint16`, `setUint32`, `setInt16` with
 * `littleEndian = true`) and the matching reads.
 */
module Bytes {

  newtype byte = x: int | 0 <= x < 256

  const U16_RANGE := 0x1_0000
  const U32_RANGE := 0x1_0000_0000

  /** The unsigned 16-bit value stored little-endian at `off`. */
  function U16At(w: seq<byte>, off: nat): int
    requires off + 2 <= |w|
  {
    w[off] as int + 256 * w[off + 1] as int
  }

  /** The unsigned 32-bit value stored little-endian at `off`. */
  function U32At(w: seq<byte>, off: nat): int
    requires off + 4 <= |w|
  {
    U16At(w, off) + U16_RANGE * U16At(w, off + 2)
  }

  /** The two's-complement 16-bit value stored little-endian at `off` (an `Int16Array` element). */
  function I16At(w: seq<byte>, off: nat): (v: int)
    requires off + 2 <= |w|
    ensures -0x8000 <= v < 0x8000
  {
    var u := U16At(w, off);
    if u < 0x8000 then u else u - U16_RANGE
  }

  /**
   * The two bytes `setUint16(pos, v, true)` and `setInt16(pos, v, true)`
   * store: WebIDL converts `v` modulo 2^16, low byte first.
   */
  function LE16(v: int): (r: seq<byte>)
    ensures |r| == 2
    ensures U16At(r, 0) == v % U16_RANGE
  {
    var u := v % U16_RANGE;
    [(u % 256) as byte, (u / 256) as byte]
  }

  /** The four bytes `setUint32(pos, v, true)` stores: `v` modulo 2^32, low half first. */
  function LE32(v: int): (r: seq<byte>)
    ensures |r| == 4
    ensures U32At(r, 0) == v % U32_RANGE
  {
    var u := v % U32_RANGE;
    LE16(u % U16_RANGE) + LE16(u / U16_RANGE)
  }

  /** A signed 16-bit sample survives the store and the `Int16Array` read unchanged. */
  lemma I16RoundTrip(v: int)
    requires -0x8000 <= v < 0x8000
    ensures I16At(LE16(v), 0) == v
  {
  }

  /** Reading inside the left part of a concatenation ignores the right part. */
  lemma I16AtLeft(a: seq<byte>, b: seq<byte>, off: nat)
    requires off + 2 <= |a|
    ensures I16At(a + b, off) == I16At(a, off)
  {
    assert (a + b)[off] == a[off] && (a + b)[off + 1] == a[off + 1];
  }

  /** Reading inside the right part of a concatenation ignores the left part. */
  lemma I16AtRight(a: seq<byte>, b: seq<byte>, off: nat)
    requires off + 2 <= |b|
    ensures I16At(a + b, |a| + off) == I16At(b, off)
  {
    assert (a + b)[|a| + off] == b[off] && (a + b)[|a| + off + 1] == b[off + 1];
  }

  lemma I16AtDrop(w: seq<byte>, h: nat, off: nat)
    requires h + off + 2 <= |w|
    ensures I16At(w, h + off) == I16At(w[h..], off)
  {
    assert w[h..][off] == w[h + off] && w[h..][off + 1] == w[h + off + 1];
  }

  /** The bytes of an ASCII text tag such as "RIFF". */
  function Ascii(s: string): (r: seq<byte>)
    requires forall i :: 0 <= i < |s| ==> s[i] as int < 256
    ensures |r| == |s|
  {
    seq(|s|, i requires 0 <= i < |s| => s[i] as int as byte)
  }
}

=== FILE: config.dfy ===
/**
 * The option lists the form's selects draw from: languages, topics, title
 * counts, script sections, words per section, customization modes, image
 * styles, thumbnail sizes and voices.
 */
module Config {

  /** An `<option>`: the value stored in the session and the label (`caption`) shown. */
  datatype Choice = Choice(value: string, caption: string)

  const LANGUAGE_OPTIONS: seq<Choice> := [
    Choice("Vietnamese", "Tiếng Việt"),
    Choice("English", "English"),
    Choice("Spanish", "Español"),
    Choice("French", "Français")
  ]

  const TOPIC_OPTIONS: seq<string> := ["Lịch Sử", "Tài chính", "Sức Khoẻ", "Công nghệ", "Khoa học", "Giải trí", "Thể thao"]

  const NUM_TITLES_OPTIONS: seq<nat> := [3, 5, 7, 10]

  /** `Array.from({ length: 16 }, (_, i) => i + 5)`, written out here; `ScriptSectionsRange` ties it to `i + 5`. */
  const SCRIPT_SECTIONS_OPTIONS: seq<nat> := [5, 6, 7, 8, 9, 10, 11, 12, 13, 14, 15, 16, 17, 18, 19, 20]

  const WORDS_PER_SECTION_OPTIONS: seq<nat> := [500, 700, 1000, 1500]

  /** The script customization modes: expand, keep 70%, in depth. */
  const CUSTOMIZATION_OPTIONS: seq<string> := ["Mở rộng", "Giữ 70%", "Chuyên sâu"]

  const IMAGE_STYLES: seq<string> := ["Cinematic", "Photorealistic", "Anime", "Fantasy Art", "3D Render", "Minimalist", "Watercolor"]

  const THUMBNAIL_SIZES: seq<Choice> := [
    Choice("1280x720", "1280x720 (16:9)"),
    Choice("1920x1080", "1920x1080 (16:9)"),
    Choice("1080x1920", "1080x1920 (9:16)"),
    Choice("1080x1080", "1080x1080 (1:1)")
  ]

  const VOICES: seq<Choice> := [
    Choice("Kore", "Giọng Nam 1 (Kore)"),
    Choice("Puck", "Giọng Nam 2 (Puck)"),
    Choice("Charon", "Giọng Nữ 1 (Charon)"),
    Choice("Fenrir", "Giọng Nữ 2 (Fenrir)"),
    Choice("Zephyr", "Giọng Nữ 3 (Zephyr)")
  ]

  /** The values each select of the form offers. */
  datatype Form = Form(
    languages: seq<string>, topics: seq<string>, numTitles: seq<nat>, numSections: seq<nat>,
    wordsPerSection: seq<nat>, customizations: seq<string>, styles: seq<string>,
    sizes: seq<string>, voices: seq<string>)

  /** The form of the page. */
  const FORM: Form := Form(
    Values(LANGUAGE_OPTIONS), TOPIC_OPTIONS, NUM_TITLES_OPTIONS, SCRIPT_SECTIONS_OPTIONS,
    WORDS_PER_SECTION_OPTIONS, CUSTOMIZATION_OPTIONS, IMAGE_STYLES, Values(THUMBNAIL_SIZES), Values(VOICES))

  /** The values of a list of options, in order. */
  function Values(cs: seq<Choice>): (vs: seq<string>)
    ensures |vs| == |cs|
    ensures forall i :: 0 <= i < |cs| ==> vs[i] == cs[i].value
  {
    seq(|cs|, i requires 0 <= i < |cs| => cs[i].value)
  }

  predicate Distinct<T(==)>(xs: seq<T>)
  {
    forall i, j :: 0 <= i < j < |xs| ==> xs[i] != xs[j]
  }

  predicate Ascending(xs: seq<int>)
  {
    forall i, j :: 0 <= i < j < |xs| ==> xs[i] < xs[j]
  }

  /** The script-section counts are exactly 5 to 20, ascending: entry `i` of the 16 is `i + 5`. */
  lemma ScriptSectionsRange()
    ensures |SCRIPT_SECTIONS_OPTIONS| == 16 && Ascending(SCRIPT_SECTIONS_OPTIONS)
    ensures forall i :: 0 <= i < 16 ==> SCRIPT_SECTIONS_OPTIONS[i] == i + 5
    ensures forall n: int :: n in SCRIPT_SECTIONS_OPTIONS <==> 5 <= n <= 20
  {
    forall n: int | 5 <= n <= 20
      ensures n in SCRIPT_SECTIONS_OPTIONS
    {
      assert SCRIPT_SECTIONS_OPTIONS[n - 5] == n;
    }
  }

  /** The numeric lists are ascending, and every option list offers each value once. */
  lemma OptionsDistinct()
    ensures NUM_TITLES_OPTIONS == [3, 5, 7, 10] && Ascending(NUM_TITLES_OPTIONS)
    ensures WORDS_PER_SECTION_OPTIONS == [500, 700, 1000, 1500] && Ascending(WORDS_PER_SECTION_OPTIONS)
    ensures Distinct(Values(LANGUAGE_OPTIONS)) && Distinct(Values(THUMBNAIL_SIZES)) && Distinct(Values(VOICES))
    ensures Distinct(TOPIC_OPTIONS) && Distinct(IMAGE_STYLES)
    ensures |CUSTOMIZATION_OPTIONS| == 3 && Distinct(CUSTOMIZATION_OPTIONS)
  {
  }
}

=== FILE: gateway.dfy ===
/**
 * The pure parts of the generative-AI service module. A remote call is a
 * parameter (`Call`): it answers, or it fails. What each service function
 * then does with the answer — parse it, fall back to `[]`, wrap image bytes
 * in a `data:` URI, decode speech — is modelled here, as is which fragments
 * go into the prompts: the original-content branch of the script prompt, the
 * script excerpts of the SEO and thumbnail prompts, the style guidance, the
 * aspect ratio and the watermark block.
 */
module Gateway {
  import opened Wrappers
  import opened Bytes
  import opened Text
  import opened Audio
  import opened Pcm
  import opened Config
  import opened Session

  /** What a remote call (`ai.models.*`, or the vision step) does: it answers with a body, or it rejects. */
  datatype Call<+T> = Reply(body: T) | Fault

  /** How the promise returned by a service function settles. */
  datatype Outcome<+T> = Resolved(value: T) | Rejected

  /**
   * `generateTitles` and `generateImagePrompts`: the body is the result of
   * `JSON.parse` on the trimmed text (`None` when parsing throws). A parse
   * failure is caught and gives an empty list; a failed call rejects.
   */
  function ListReply<T>(call: Call<Option<seq<T>>>): (r: Outcome<seq<T>>)
    ensures r.Rejected? <==> call.Fault?
    ensures call.Reply? && call.body.None? ==> r == Resolved([])
    ensures call.Reply? && call.body.Some? ==> r == Resolved(call.body.value)
  {
    match call
    case Fault => Rejected
    case Reply(parsed) => Resolved(if parsed.Some? then parsed.value else [])
  }

  /** `generateScript`: the text of the answer, as is. */
  function ScriptReply(call: Call<string>): (r: Outcome<string>)
    ensures r.Rejected? <==> call.Fault?
    ensures call.Reply? ==> r == Resolved(call.body)
  {
    match call
    case Fault => Rejected
    case Reply(text) => Resolved(text)
  }

  /** `generateSeo`: unlike the list services, a parse failure is not caught and rejects the promise. */
  function SeoReply(call: Call<Option<SeoData>>): (r: Outcome<SeoData>)
    ensures r.Rejected? <==> call.Fault? || call.body.None?
    ensures r.Resolved? ==> call == Reply(Some(r.value))
  {
    match call
    case Fault => Rejected
    case Reply(parsed) => if parsed.Some? then Resolved(parsed.value) else Rejected
  }

  /** The list services fall back to `[]` on a parse failure, while the SEO service propagates it. */
  lemma ParseFailurePolicy()
    ensures ListReply<GeneratedTitle>(Reply(None)) == Resolved([])
    ensures ListReply<string>(Reply(None)) == Resolved([])
    ensures SeoReply(Reply(None)).Rejected?
  {
  }

  /** The media type and encoding of the thumbnail `data:` URI, in the syntax of RFC 2397. */
  const JPEG_BASE64_PREFIX: string := "data:image/jpeg;base64,"

  /**
   * `generateThumbnail`, after the call: the base64 bytes of the first image
   * (`None` when the answer has none). Empty bytes are falsy, so they too
   * give `null`.
   */
  function ThumbnailReply(call: Call<Option<string>>): (r: Outcome<Option<string>>)
    ensures r.Rejected? <==> call.Fault?
    ensures r.Resolved? ==> (r.value.Some? <==> call.body.Some? && call.body.value != [])
  {
    match call
    case Fault => Rejected
    case Reply(bytes) =>
      if bytes.Some? && bytes.value != [] then Resolved(Some(JPEG_BASE64_PREFIX + bytes.value))
      else Resolved(None)
  }

  /** The payload of a JPEG base64 `data:` URI, or `None` for any other text. */
  function DataUriPayload(uri: string): (payload: Option<string>)
    ensures payload.Some? ==> JPEG_BASE64_PREFIX + payload.value == uri
  {
    var n := |JPEG_BASE64_PREFIX|;
    if n <= |uri| && uri[..n] == JPEG_BASE64_PREFIX then
      assert uri == uri[..n] + uri[n..];
      Some(uri[n..])
    else None
  }

  /** The URI of a thumbnail reads back as exactly the image bytes of the answer. */
  lemma ThumbnailPayload(call: Call<Option<string>>)
    requires ThumbnailReply(call).Resolved? && ThumbnailReply(call).value.Some?
    ensures DataUriPayload(ThumbnailReply(call).value.value) == call.body
  {
    var uri := ThumbnailReply(call).value.value;
    var n := |JPEG_BASE64_PREFIX|;
    assert uri[..n] == JPEG_BASE64_PREFIX;
    assert uri[n..] == call.body.value;
  }

  /** The rate at which speech is decoded: 24 kHz, one channel. */
  const SPEECH_SAMPLE_RATE: nat := 24000

  /**
   * `generateVoice` and `generateDemoVoice`, after the call: the base64 audio
   * of the first part of the first candidate (`None` when absent; empty text
   * is falsy) goes through `atob` (`None` when it throws), `decode` and
   * `decodeAudioData` at 24 kHz mono. A throw anywhere rejects the promise.
   */
  function SpeechReply(call: Call<Option<string>>, atob: string -> Option<string>): (r: Outcome<Option<PcmBuffer>>)
    ensures call.Fault? ==> r.Rejected?
    ensures call.Reply? && (call.body.None? || call.body.value == []) ==> r == Resolved(None)
    ensures r.Resolved? && r.value.Some? ==>
              && call.Reply? && call.body.Some? && atob(call.body.value).Some?
              && DecodeAudioData(DecodeBinary(atob(call.body.value).value), SPEECH_SAMPLE_RATE, 1) == Success(r.value.value)
    ensures call.Reply? && call.body.Some? && call.body.value != [] ==>
              (r.Rejected? <==> atob(call.body.value).None?
                                || DecodeAudioData(DecodeBinary(atob(call.body.value).value), SPEECH_SAMPLE_RATE, 1).Failure?)
    ensures call.Reply? && call.body.Some? && call.body.value != [] && atob(call.body.value).Some? ==>
              var decoded := DecodeAudioData(DecodeBinary(atob(call.body.value).value), SPEECH_SAMPLE_RATE, 1);
              decoded.Success? ==> r == Resolved(Some(decoded.value))
  {
    match call
    case Fault => Rejected
    case Reply(audio) =>
      if audio.None? || audio.value == [] then Resolved(None)
      else match atob(audio.value)
        case None => Rejected
        case Some(binary) =>
          match DecodeAudioData(DecodeBinary(binary), SPEECH_SAMPLE_RATE, 1)
          case Failure(_) => Rejected
          case Success(buffer) => Resolved(Some(buffer))
  }

  /** A decoded voice-over is a 24 kHz mono buffer with one sample per int16 word of the decoded bytes. */
  lemma SpeechShape(call: Call<Option<string>>, atob: string -> Option<string>)
    requires SpeechReply(call, atob).Resolved? && SpeechReply(call, atob).value.Some?
    ensures var b := SpeechReply(call, atob).value.value;
            && b.sampleRate == SPEECH_SAMPLE_RATE && |b.channels| == 1
            && 2 * b.length == |atob(call.body.value).value|
  {
    var bytes := DecodeBinary(atob(call.body.value).value);
    var b := SpeechReply(call, atob).value.value;
    assert DecodeAudioData(bytes, SPEECH_SAMPLE_RATE, 1).Success?;
  }

  /** `size.split('x')` read as `[width, height]` by `parseInt(_, 10)`; a missing part is `undefined`, which parses as NaN. */
  function Dimensions(size: string): (wh: (Num, Num))
    ensures Free(size, 'x') ==> wh == (ParseInt(size), NaN)
  {
    var parts := Split(size, "x");
    assert Free(size, 'x') ==> parts == [size] by {
      if Free(size, 'x') {
        SplitOfPiece(size, "x");
      }
    }
    (ParseInt(parts[0]), if |parts| >= 2 then ParseInt(parts[1]) else NaN)
  }

  /** `a > b` on numbers; every comparison with NaN is false. */
  predicate Greater(a: Num, b: Num)
  {
    a.Int? && b.Int? && a.value > b.value
  }

  /** The aspect ratio requested from the image service: landscape, portrait or square. */
  function AspectRatio(size: string): (ratio: string)
    ensures ratio in ["16:9", "9:16", "1:1"]
  {
    var (w, h) := Dimensions(size);
    if Greater(w, h) then "16:9" else if Greater(h, w) then "9:16" else "1:1"
  }

  /** Wider than high is 16:9, higher than wide is 9:16, anything else (equal sides, or a side that is not a number) is 1:1. */
  lemma AspectRatioOfSize(w: nat, h: nat)
    ensures AspectRatio(Show(w) + "x" + Show(h)) == if w > h then "16:9" else if w < h then "9:16" else "1:1"
  {
    DigitsFree(Show(w));
    DigitsFree(Show(h));
    SplitJoin([Show(w), Show(h)], "x");
    assert Join([Show(w), Show(h)], "x") == Show(w) + "x" + Show(h) by {
      assert [Show(w), Show(h)][1..] == [Show(h)];
    }
    ParseIntShow(w);
    ParseIntShow(h);
  }

  lemma {:induction false} DigitsFree(s: string)
    requires forall i :: 0 <= i < |s| ==> IsDigit(s[i])
    ensures Free(s, 'x')
    decreases |s|
  {
    if s != [] {
      assert IsDigit(s[0]);
      DigitsFree(s[1..]);
    }
  }

  /** A size option of the form `<width>x<height>` whose label names the ratio the image service is asked for. */
  ghost predicate SizeOptionConsistent(c: Choice)
  {
    && (exists w: nat, h: nat :: w > 0 && h > 0 && c.value == Show(w) + "x" + Show(h))
    && c.caption == c.value + " (" + AspectRatio(c.value) + ")"
  }

  /** Each thumbnail size is `<width>x<height>` with positive sides, and its label names the ratio the image service is asked for. */
  lemma ThumbnailSizeLabels()
    ensures forall i :: 0 <= i < |THUMBNAIL_SIZES| ==> SizeOptionConsistent(THUMBNAIL_SIZES[i])
  {
    forall i | 0 <= i < |THUMBNAIL_SIZES|
      ensures SizeOptionConsistent(THUMBNAIL_SIZES[i])
    {
      if i == 0 {
        Landscape720();
      } else if i == 1 {
        Landscape1080();
      } else if i == 2 {
        Portrait1080();
      } else {
        Square1080();
      }
    }
  }

  lemma Landscape720()
    ensures SizeOptionConsistent(THUMBNAIL_SIZES[0])
  {
    assert Show(1280) == "1280";
    assert Show(720) == "720";
    SizeLabel(THUMBNAIL_SIZES[0], 1280, 720, "16:9");
  }

  lemma Landscape1080()
    ensures SizeOptionConsistent(THUMBNAIL_SIZES[1])
  {
    assert Show(1920) == "1920";
    assert Show(1080) == "1080";
    SizeLabel(THUMBNAIL_SIZES[1], 1920, 1080, "16:9");
  }

  lemma Portrait1080()
    ensures SizeOptionConsistent(THUMBNAIL_SIZES[2])
  {
    assert Show(1920) == "1920";
    assert Show(1080) == "1080";
    SizeLabel(THUMBNAIL_SIZES[2], 1080, 1920, "9:16");
  }

  lemma Square1080()
    ensures SizeOptionConsistent(THUMBNAIL_SIZES[3])
  {
    assert Show(1080) == "1080";
    SizeLabel(THUMBNAIL_SIZES[3], 1080, 1080, "1:1");
  }

  lemma SizeLabel(c: Choice, w: nat, h: nat, ratio: string)
    requires w > 0 && h > 0 && c.value == Show(w) + "x" + Show(h)
    requires ratio == if w > h then "16:9" else if w < h then "9:16" else "1:1"
    requires c.caption == c.value + " (" + ratio + ")"
    ensures SizeOptionConsistent(c)
  {
    AspectRatioOfSize(w, h);
  }

  /** The visual-style paragraph of the thumbnail prompt. */
  datatype StyleGuidance =
    | Overall(style: string)                        // no sample image
    | Replicate(description: string)                // the vision call described the sample image
    | InspiredBy(fileName: string, style: string)   // the vision call failed

  /** The style paragraph: the vision call only happens for a sample image, and its failure is caught. */
  function Guidance(style: string, sample: Option<FileRef>, vision: Call<string>): (g: StyleGuidance)
    ensures sample.None? <==> g.Overall?
    ensures g.Replicate? <==> sample.Some? && vision.Reply?
    ensures g.Overall? ==> g.style == style
    ensures g.Replicate? ==> g.description == vision.body
    ensures g.InspiredBy? ==> g.fileName == sample.value.name && g.style == style
  {
    match sample
    case None => Overall(style)
    case Some(file) =>
      match vision
      case Reply(description) => Replicate(description)
      case Fault => InspiredBy(file.name, style)
  }

  /** The content paragraph of the script prompt: develop the original text, or write freely from the title. */
  datatype ContentGuidance =
    | FromOriginal(customization: string, original: string)
    | FromTitle(customization: string)

  /**
   * The customization modes the script prompt explains, in both branches:
   * expand, keep 70%, in depth.
   */
  const DESCRIBED_MODES: seq<string> := ["Mở rộng", "Giữ 70%", "Chuyên sâu"]

  /** The fragments of the script prompt that depend on the inputs. */
  datatype ScriptPrompt = ScriptPrompt(
    title: string, numSections: Num, wordsPerSection: Num, language: string,
    guidance: ContentGuidance, modes: seq<string>)

  /** `generateScript`'s prompt: the original-content branch is taken for a non-empty original text. */
  function ScriptRequest(title: string, numSections: Num, wordsPerSection: Num, language: string,
                         customization: string, originalContent: Option<string>): (p: ScriptPrompt)
    ensures p.guidance.FromOriginal? <==> originalContent.Some? && originalContent.value != []
    ensures p.guidance.FromOriginal? ==> p.guidance.original == originalContent.value
    ensures p.guidance.customization == customization && p.modes == DESCRIBED_MODES
  {
    var guidance :=
      if originalContent.Some? && originalContent.value != [] then FromOriginal(customization, originalContent.value)
      else FromTitle(customization);
    ScriptPrompt(title, numSections, wordsPerSection, language, guidance, DESCRIBED_MODES)
  }

  /** The three customization options are exactly the three modes the script prompt explains. */
  lemma CustomizationModesDescribed()
    ensures CUSTOMIZATION_OPTIONS == DESCRIBED_MODES
    ensures |DESCRIBED_MODES| == 3 && Distinct(DESCRIBED_MODES)
  {
  }

  /** How much of the script the SEO prompt quotes. */
  const SEO_EXCERPT_LENGTH: nat := 4000

  datatype SeoPrompt = SeoPrompt(title: string, excerpt: string, language: string)

  /** `generateSeo`'s prompt: the title and `scriptContent.substring(0, 4000)`. */
  function SeoRequest(title: string, script: string, language: string): (p: SeoPrompt)
    ensures p.excerpt <= script && |p.excerpt| <= SEO_EXCERPT_LENGTH
    ensures |script| <= SEO_EXCERPT_LENGTH <==> p.excerpt == script
    ensures |script| > SEO_EXCERPT_LENGTH ==> |p.excerpt| == SEO_EXCERPT_LENGTH
  {
    SeoPrompt(title, Prefix(script, SEO_EXCERPT_LENGTH), language)
  }

  /** How much of the script the thumbnail prompt quotes as its summary. */
  const SUMMARY_LENGTH: nat := 200

  datatype ThumbnailPrompt = ThumbnailPrompt(
    title: string, summary: string, language: string, aspectRatio: string,
    style: StyleGuidance, watermark: Option<string>)

  /** `generateThumbnail`'s prompt: the watermark block appears only when it is enabled and its text is not empty. */
  function ThumbnailRequest(title: string, script: string, size: string, language: string, style: string,
                            sample: Option<FileRef>, vision: Call<string>,
                            useWatermark: bool, watermarkText: string): (p: ThumbnailPrompt)
    ensures p.watermark.Some? <==> useWatermark && watermarkText != []
    ensures p.watermark.Some? ==> p.watermark.value == watermarkText
    ensures p.summary <= script && |p.summary| <= SUMMARY_LENGTH
    ensures |script| <= SUMMARY_LENGTH <==> p.summary == script
    ensures |script| > SUMMARY_LENGTH ==> |p.summary| == SUMMARY_LENGTH
    ensures p.aspectRatio == AspectRatio(size) && p.style == Guidance(style, sample, vision)
  {
    ThumbnailPrompt(
      title, Prefix(script, SUMMARY_LENGTH), language, AspectRatio(size),
      Guidance(style, sample, vision),
      if useWatermark && watermarkText != [] then Some(watermarkText) else None)
  }
}

=== FILE: packager.dfy ===
/**
 * The pure part of `downloadZip`: which entries go into the archive, what the
 * text entries hold, and the name the archive is saved under.
 */
module Packager {
  import opened Wrappers
  import opened Text
  import opened Bytes
  import opened Audio
  import opened Session
  import Wav
  import Slug

  /** What an entry holds: text, the thumbnail's `data:` URI (whose fetch yields the image), or WAV bytes. */
  datatype Content = Plain(text: string) | Fetched(uri: string) | Wave(bytes: seq<byte>)

  datatype Entry = Entry(name: string, content: Content)

  datatype Archive = Archive(name: string, entries: seq<Entry>)

  /** The entry names, in the order the entries are added. */
  const NAMES: seq<string> := ["01_title.txt", "02_script.txt", "03_seo.txt", "04_image_prompts.txt", "05_thumbnail.jpg", "06_voice.wav"]

  const TITLE := 0
  const SCRIPT := 1
  const SEO := 2
  const PROMPTS := 3
  const THUMBNAIL := 4
  const VOICE := 5

  /** The text of the SEO entry: three labelled blocks separated by blank lines. */
  function SeoText(m: SeoData): (t: string)
    ensures |t| == |m.description| + |m.hashtags| + |m.tags| + 33
    ensures t[..13] == "Description:\n" && t[|t| - |m.tags|..] == m.tags
  {
    "Description:\n" + m.description + "\n\nHashtags:\n" + m.hashtags + "\n\nTags:\n" + m.tags
  }

  /** The text of the prompts entry: the prompts separated by blank lines. */
  function PromptsText(ps: seq<string>): (t: string)
    ensures ps == [] ==> t == []
    ensures |ps| == 1 ==> t == ps[0]
  {
    Join(ps, "\n\n")
  }

  /** What each slot contributes, in entry order; `None` when the session has nothing for it. */
  function Slots(s: AppState): (cs: seq<Option<Content>>)
    ensures |cs| == |NAMES|
  {
    [
      if s.step1.selectedTitle.Some? then Some(Plain(s.step1.selectedTitle.value.title)) else None,
      if s.step2.script != "" then Some(Plain(s.step2.script)) else None,
      if s.step3.seo.Some? then Some(Plain(SeoText(s.step3.seo.value))) else None,
      if |s.step4.prompts| > 0 then Some(Plain(PromptsText(s.step4.prompts))) else None,
      if s.step5.thumbnail.Some? && s.step5.thumbnail.value != "" then Some(Fetched(s.step5.thumbnail.value)) else None,
      if s.step6.voiceAudio.Some? then Some(Wave(Wav.Encode(s.step6.voiceAudio.value))) else None
    ]
  }

  /** The filled slots as named entries, in slot order. */
  function Collect(names: seq<string>, cs: seq<Option<Content>>): (es: seq<Entry>)
    requires |names| == |cs|
    ensures |es| <= |cs|
  {
    if cs == [] then []
    else (if cs[0].Some? then [Entry(names[0], cs[0].value)] else []) + Collect(names[1..], cs[1..])
  }

  /** The archive's entries. */
  function Entries(s: AppState): seq<Entry>
  {
    Collect(NAMES, Slots(s))
  }

  /** The content of the first entry called `name`, if any. */
  function Find(es: seq<Entry>, name: string): (c: Option<Content>)
    ensures c.Some? <==> exists e :: e in es && e.name == name
  {
    if es == [] then None
    else if es[0].name == name then Some(es[0].content)
    else Find(es[1..], name)
  }

  /** The title the archive is named after. */
  function TitleOf(s: AppState): Option<string>
  {
    if s.step1.selectedTitle.Some? then Some(s.step1.selectedTitle.value.title) else None
  }

  /** The archive `downloadZip` builds; `nfd` is the Unicode canonical decomposition. */
  function Package(s: AppState, nfd: string -> string): (a: Archive)
    ensures a.entries == Entries(s)
    ensures |a.name| > 12 && a.name[..8] == "ND_AllS_" && a.name[|a.name| - 4..] == ".zip"
    ensures a.name[8..|a.name| - 4] == Slug.TitleSlug(TitleOf(s), nfd)
    ensures s.step1.selectedTitle.None? ==> a.name == "ND_AllS_content.zip"
  {
    var name := Slug.ArchiveName(TitleOf(s), nfd);
    assert name == name[..8] + name[8..|name| - 4] + name[|name| - 4..];
    Archive(name, Entries(s))
  }

  // Entry selection.

  predicate DistinctNames(names: seq<string>)
  {
    forall i, j :: 0 <= i < j < |names| ==> names[i] != names[j]
  }

  predicate UniqueNames(es: seq<Entry>)
  {
    forall i, j :: 0 <= i < j < |es| ==> es[i].name != es[j].name
  }

  lemma NamesDistinct()
    ensures DistinctNames(NAMES)
  {
  }

  /** Every entry `Collect` makes carries a name from a filled slot. */
  lemma {:induction false} CollectedName(names: seq<string>, cs: seq<Option<Content>>, e: Entry)
    requires |names| == |cs| && e in Collect(names, cs)
    ensures exists i :: 0 <= i < |cs| && cs[i].Some? && e.name == names[i]
    decreases |cs|
  {
    var rest := Collect(names[1..], cs[1..]);
    if e in rest {
      CollectedName(names[1..], cs[1..], e);
      var i :| 0 <= i < |cs[1..]| && cs[1..][i].Some? && e.name == names[1..][i];
      assert cs[i + 1].Some? && e.name == names[i + 1];
    } else {
      assert cs[0].Some? && e.name == names[0];
    }
  }

  /** With distinct names, looking up `names[k]` among the collected entries finds slot `k`. */
  lemma {:induction false} FindCollected(names: seq<string>, cs: seq<Option<Content>>, k: nat)
    requires |names| == |cs| && DistinctNames(names) && k < |cs|
    ensures Find(Collect(names, cs), names[k]) == cs[k]
    decreases |cs|
  {
    var rest := Collect(names[1..], cs[1..]);
    if k == 0 {
      if cs[0].None? {
        assert Collect(names, cs) == rest;
        if Find(rest, names[0]).Some? {
          var e :| e in rest && e.name == names[0];
          CollectedName(names[1..], cs[1..], e);
        }
      }
    } else {
      FindCollected(names[1..], cs[1..], k - 1);
      if cs[0].Some? {
        assert Collect(names, cs) == [Entry(names[0], cs[0].value)] + rest;
        assert names[0] != names[k];
      } else {
        assert Collect(names, cs) == rest;
      }
    }
  }

  /** Collecting under distinct names gives entries with distinct names. */
  lemma {:induction false} CollectUnique(names: seq<string>, cs: seq<Option<Content>>)
    requires |names| == |cs| && DistinctNames(names)
    ensures UniqueNames(Collect(names, cs))
    decreases |cs|
  {
    if cs != [] {
      var rest := Collect(names[1..], cs[1..]);
      CollectUnique(names[1..], cs[1..]);
      if cs[0].Some? {
        var es := [Entry(names[0], cs[0].value)] + rest;
        assert Collect(names, cs) == es;
        forall j | 1 <= j < |es|
          ensures es[0].name != es[j].name
        {
          assert es[j] == rest[j - 1] && es[j] in rest;
          CollectedName(names[1..], cs[1..], es[j]);
        }
      } else {
        assert Collect(names, cs) == rest;
      }
    }
  }

  /** The entry called `NAMES[k]` exists exactly when slot `k` is filled, and holds that slot's content. */
  lemma EntryOfSlot(s: AppState, k: nat)
    requires k < |NAMES|
    ensures Find(Entries(s), NAMES[k]) == Slots(s)[k]
  {
    NamesDistinct();
    FindCollected(NAMES, Slots(s), k);
  }

  /** No two entries share a name, and each name is one of the six. */
  lemma EntryNames(s: AppState)
    ensures UniqueNames(Entries(s))
    ensures forall e :: e in Entries(s) ==> e.name in NAMES
  {
    NamesDistinct();
    CollectUnique(NAMES, Slots(s));
    forall e | e in Entries(s)
      ensures e.name in NAMES
    {
      CollectedName(NAMES, Slots(s), e);
    }
  }

  /** Which entries the archive holds, by the session slices that fill them. */
  lemma ArchiveEntries(s: AppState)
    ensures Find(Entries(s), NAMES[TITLE]).Some? <==> s.step1.selectedTitle.Some?
    ensures Find(Entries(s), NAMES[SCRIPT]).Some? <==> s.step2.script != []
    ensures Find(Entries(s), NAMES[SEO]).Some? <==> s.step3.seo.Some?
    ensures Find(Entries(s), NAMES[PROMPTS]).Some? <==> s.step4.prompts != []
    ensures Find(Entries(s), NAMES[THUMBNAIL]).Some? <==> s.step5.thumbnail.Some? && s.step5.thumbnail.value != []
    ensures Find(Entries(s), NAMES[VOICE]).Some? <==> s.step6.voiceAudio.Some?
  {
    EntryOfSlot(s, TITLE);
    EntryOfSlot(s, SCRIPT);
    EntryOfSlot(s, SEO);
    EntryOfSlot(s, PROMPTS);
    EntryOfSlot(s, THUMBNAIL);
    EntryOfSlot(s, VOICE);
  }

  /** The text entries hold the title, the script, and the SEO and prompts layouts. */
  lemma TextEntries(s: AppState)
    ensures s.step1.selectedTitle.Some? ==> Find(Entries(s), NAMES[TITLE]) == Some(Plain(s.step1.selectedTitle.value.title))
    ensures s.step2.script != [] ==> Find(Entries(s), NAMES[SCRIPT]) == Some(Plain(s.step2.script))
    ensures s.step3.seo.Some? ==> Find(Entries(s), NAMES[SEO]) == Some(Plain(SeoText(s.step3.seo.value)))
    ensures s.step4.prompts != [] ==> Find(Entries(s), NAMES[PROMPTS]) == Some(Plain(PromptsText(s.step4.prompts)))
    ensures s.step5.thumbnail.Some? && s.step5.thumbnail.value != [] ==>
      Find(Entries(s), NAMES[THUMBNAIL]) == Some(Fetched(s.step5.thumbnail.value))
  {
    EntryOfSlot(s, TITLE);
    EntryOfSlot(s, SCRIPT);
    EntryOfSlot(s, SEO);
    EntryOfSlot(s, PROMPTS);
    EntryOfSlot(s, THUMBNAIL);
  }

  /** A fresh session packs nothing. */
  lemma InitialArchiveEmpty()
    ensures Entries(Initial()) == []
  {
  }

  // Entry contents.

  /** The lines of the SEO entry. */
  function SeoLines(m: SeoData): seq<string>
  {
    ["Description:", m.description, "", "Hashtags:", m.hashtags, "", "Tags:", m.tags]
  }

  /** Eight lines joined by `sep`, grouped as the SEO layout groups them. */
  lemma {:induction false} JoinEight(ls: seq<string>, sep: string)
    requires |ls| == 8
    ensures Join(ls, sep) == ls[0] + sep + ls[1] + (sep + ls[2] + sep + ls[3] + sep) + ls[4] + (sep + ls[5] + sep + ls[6] + sep) + ls[7]
  {
    var j4 := ls[4] + sep + ls[5] + sep + ls[6] + sep + ls[7];
    assert Join(ls[7..], sep) == ls[7];
    assert Join(ls[6..], sep) == ls[6] + sep + ls[7];
    assert Join(ls[5..], sep) == ls[5] + sep + (ls[6] + sep + ls[7]);
    assert Join(ls[4..], sep) == j4;
    assert Join(ls[3..], sep) == ls[3] + sep + j4;
    assert Join(ls[2..], sep) == ls[2] + sep + (ls[3] + sep + j4);
    assert Join(ls[1..], sep) == ls[1] + sep + (ls[2] + sep + (ls[3] + sep + j4));
  }

  /** The SEO entry is its eight lines joined by line breaks. */
  lemma SeoTextLines(m: SeoData)
    ensures SeoText(m) == Join(SeoLines(m), "\n")
  {
    JoinEight(SeoLines(m), "\n");
    assert "Description:" + "\n" == "Description:\n";
    assert "\n" + "" + "\n" + "Hashtags:" + "\n" == "\n\nHashtags:\n";
    assert "\n" + "" + "\n" + "Tags:" + "\n" == "\n\nTags:\n";
  }

  /** Reads the three fields back from the lines of an SEO entry. */
  function ReadSeoLines(ls: seq<string>): (m: Option<SeoData>)
    ensures m.Some? ==> |ls| == 8 && m.value == SeoData(ls[1], ls[4], ls[7])
  {
    if |ls| == 8 && ls[0] == "Description:" && ls[2] == "" && ls[3] == "Hashtags:" && ls[5] == "" && ls[6] == "Tags:"
    then Some(SeoData(ls[1], ls[4], ls[7]))
    else None
  }

  /** Reads the three fields back from an SEO entry, line by line. */
  function ReadSeo(text: string): Option<SeoData>
  {
    ReadSeoLines(Split(text, "\n"))
  }

  /** `s` holds no line break. */
  predicate SingleLine(s: string)
  {
    '\n' !in s
  }

  /** The lines of the SEO layout read back as the metadata they came from. */
  lemma ReadSeoLinesOf(m: SeoData)
    ensures ReadSeoLines(SeoLines(m)) == Some(m)
  {
  }

  /** Single-line SEO fields come back out of the entry's text unchanged. */
  lemma SeoRoundTrip(m: SeoData)
    requires SingleLine(m.description) && SingleLine(m.hashtags) && SingleLine(m.tags)
    ensures ReadSeo(SeoText(m)) == Some(m)
  {
    var ls := SeoLines(m);
    SeoTextLines(m);
    forall k | 0 <= k < |ls|
      ensures Free(ls[k], "\n"[0])
    {
      FreeOfAbsent(ls[k], '\n');
    }
    SplitJoin(ls, "\n");
    ReadSeoLinesOf(m);
  }

  /** Single-line prompts come back out of the prompts entry one by one, in order. */
  lemma PromptsRoundTrip(ps: seq<string>)
    requires ps != [] && forall k :: 0 <= k < |ps| ==> SingleLine(ps[k])
    ensures Split(PromptsText(ps), "\n\n") == ps
  {
    forall k | 0 <= k < |ps|
      ensures Free(ps[k], "\n\n"[0])
    {
      FreeOfAbsent(ps[k], '\n');
    }
    SplitJoin(ps, "\n\n");
  }

  /** The voice entry is the WAV encoding of the voice-over, header and samples. */
  lemma VoiceEntry(s: AppState)
    requires s.step6.voiceAudio.Some?
    ensures var b := s.step6.voiceAudio.value;
      Find(Entries(s), NAMES[VOICE]) == Some(Wave(Wav.Encode(b)))
      && |Wav.Encode(b)| == Wav.HEADER_SIZE + b.length * |b.channels| * 2
  {
    EntryOfSlot(s, VOICE);
  }

}

=== FILE: pcm.dfy ===
/**
 * `decode` and `decodeAudioData`: the base64 payload of the speech service,
 * once `atob` has turned it into a binary string, becomes bytes, the bytes
 * are viewed as little-endian int16 words, and the words are de-interleaved
 * by channel and scaled by 1/32768 into an AudioBuffer.
 */
module Pcm {
  import opened Wrappers
  import opened Bytes
  import opened Audio

  /** `decode`: byte `i` is character code `i`, stored into a `Uint8Array` (so taken modulo 256). */
  function DecodeBinary(bin: string): (r: seq<byte>)
    ensures |r| == |bin|
  {
    seq(|bin|, i requires 0 <= i < |bin| => ((bin[i] as int) % 256) as byte)
  }

  /** A binary string in the `atob` sense: one character, of code below 256, per byte. */
  function BinaryString(bytes: seq<byte>): (s: string)
    ensures |s| == |bytes|
    ensures forall i :: 0 <= i < |s| ==> s[i] as int < 256
  {
    seq(|bytes|, i requires 0 <= i < |bytes| => (bytes[i] as int) as char)
  }

  /** `decode` reads back every byte of a binary string. */
  lemma DecodeBinaryString(bytes: seq<byte>)
    ensures DecodeBinary(BinaryString(bytes)) == bytes
  {
    var r := DecodeBinary(BinaryString(bytes));
    assert forall i :: 0 <= i < |bytes| ==> r[i] == bytes[i];
  }

  /** On a binary string (every code below 256, as `atob` returns) `decode` loses nothing. */
  lemma BinaryStringDecode(bin: string)
    requires forall i :: 0 <= i < |bin| ==> bin[i] as int < 256
    ensures BinaryString(DecodeBinary(bin)) == bin
  {
    var s := BinaryString(DecodeBinary(bin));
    assert forall i :: 0 <= i < |bin| ==> s[i] == bin[i];
  }

  /**
   * Why `decodeAudioData` throws: the `Int16Array` view of a buffer of odd
   * byte length is a RangeError, and `createBuffer` refuses a buffer with no
   * channel or no frame.
   */
  datatype AudioError = OddByteLength | NoChannels | UnsupportedFormat | NoFrames

  /** The decoder's scale: `int16 / 32768.0`. */
  function Scaled(k: int): real
  {
    k as real / 32768.0
  }

  /** The int16 word of frame `i`, channel `c` in interleaved data: word `i * C + c` of the `Int16Array` view. */
  function Word(data: seq<byte>, numChannels: nat, frames: nat, i: nat, c: nat): int
    requires frames * numChannels * 2 <= |data| && i < frames && c < numChannels
  {
    FrameIndex(i, c, frames, numChannels);
    I16At(data, 2 * (i * numChannels + c))
  }

  /** Channel `c` of the de-interleaved words, scaled. */
  function Channel(data: seq<byte>, numChannels: nat, frames: nat, c: nat): (ch: seq<real>)
    requires c < numChannels && frames * numChannels * 2 <= |data|
    ensures |ch| == frames
  {
    seq(frames, i requires 0 <= i < frames => Scaled(Word(data, numChannels, frames, i, c)))
  }

  /**
   * `decodeAudioData(data, ctx, sampleRate, numChannels)`. The `Int16Array`
   * view throws on an odd byte count. The frame count `words / numChannels`
   * is passed to `createBuffer`, whose `unsigned long` parameter truncates
   * it, and which throws on no channels, an unsupported format or no frames.
   */
  function DecodeAudioData(data: seq<byte>, sampleRate: nat, numChannels: nat): (r: Result<PcmBuffer, AudioError>)
    ensures r.Success? <==> |data| % 2 == 0 && Supported(sampleRate, numChannels) && (|data| / 2) / numChannels >= 1
    ensures |data| % 2 != 0 ==> r == Failure(OddByteLength)
    ensures |data| % 2 == 0 && numChannels == 0 ==> r == Failure(NoChannels)
    ensures |data| % 2 == 0 && numChannels >= 1 && !Supported(sampleRate, numChannels) ==> r == Failure(UnsupportedFormat)
    ensures r.Success? ==> && r.value.sampleRate == sampleRate
                           && |r.value.channels| == numChannels
                           && r.value.length == (|data| / 2) / numChannels
                           && r.value.length * numChannels * 2 <= |data|
  {
    if |data| % 2 != 0 then Failure(OddByteLength)
    else if numChannels == 0 then Failure(NoChannels)
    else if !Supported(sampleRate, numChannels) then Failure(UnsupportedFormat)
    else
      var frames := (|data| / 2) / numChannels;
      if frames == 0 then Failure(NoFrames)
      else
        WholeFramesFit(|data|, numChannels);
        Success(AudioBuffer(sampleRate, frames,
          seq(numChannels, c requires 0 <= c < numChannels => Channel(data, numChannels, frames, c))))
  }

  /** The frames `createBuffer` is given never reach past the words of the view. */
  lemma WholeFramesFit(size: nat, numChannels: nat)
    requires size % 2 == 0 && numChannels >= 1
    ensures (size / 2) / numChannels * numChannels * 2 <= size
  {
    var words := size / 2;
    assert words == numChannels * (words / numChannels) + words % numChannels;
  }

  /** Sample `i` of channel `c` is the int16 word `i * C + c` of the data, scaled by 1/32768. */
  lemma DecodedSample(data: seq<byte>, sampleRate: nat, numChannels: nat, c: nat, i: nat)
    requires DecodeAudioData(data, sampleRate, numChannels).Success?
    requires c < numChannels && i < DecodeAudioData(data, sampleRate, numChannels).value.length
    ensures var b := DecodeAudioData(data, sampleRate, numChannels).value;
            b.channels[c][i] == Scaled(Word(data, numChannels, b.length, i, c))
  {
    var b := DecodeAudioData(data, sampleRate, numChannels).value;
    assert b.channels[c] == Channel(data, numChannels, b.length, c);
  }

  /** Every decoded sample lies in [-1, 32767/32768]: the scale maps the int16 range there. */
  lemma DecodedRange(data: seq<byte>, sampleRate: nat, numChannels: nat)
    requires DecodeAudioData(data, sampleRate, numChannels).Success?
    ensures var b := DecodeAudioData(data, sampleRate, numChannels).value;
            forall c, i :: 0 <= c < numChannels && 0 <= i < b.length ==>
              -1.0 <= b.channels[c][i] <= 32767.0 / 32768.0
  {
    var b := DecodeAudioData(data, sampleRate, numChannels).value;
    forall c, i | 0 <= c < numChannels && 0 <= i < b.length
      ensures -1.0 <= b.channels[c][i] <= 32767.0 / 32768.0
    {
      DecodedSample(data, sampleRate, numChannels, c, i);
    }
  }
}

=== FILE: pipeline.dfy ===
/**
 * The application's event handlers as pure transitions of the UI record
 * (session state, loading flags, pending notification). How the promise of
 * a service settled is a parameter of the button event (`Outcome`), so a
 * handler is modelled from the moment it is invoked to the end of its
 * `finally` block: it checks its guard, sends a request, and on success
 * replaces exactly one field of the session.
 */
module Pipeline {
  import opened Wrappers
  import opened Text
  import opened Audio
  import opened Config
  import opened Session
  import opened Gateway

  /** The buttons of the page, each with its own loading flag. */
  datatype Action = MakeTitles | MakeScript | MakeSeo | MakePrompts | MakeThumbnail | MakeVoice | PlayDemo | Download

  /** The notification shown to the user. */
  datatype Notice =
    | Refused(action: Action)       // the handler's guard rejected the request
    | Failed(action: Action)        // the promise rejected
    | Unavailable(action: Action)   // the voice services answered without audio
    | Saved                         // the archive was handed to the browser

  datatype Ui = Ui(state: AppState, loading: LoadingStates, notice: Option<Notice>)

  function Start(): Ui
  {
    Ui(Initial(), Idle(), None)
  }

  /** The loading flag of an action. */
  function Busy(l: LoadingStates, a: Action): bool
  {
    match a
    case MakeTitles => l.titles
    case MakeScript => l.script
    case MakeSeo => l.seo
    case MakePrompts => l.prompts
    case MakeThumbnail => l.thumbnail
    case MakeVoice => l.voice
    case PlayDemo => l.voiceDemo
    case Download => l.download
  }

  /** `setLoading(l => ({ ...l, [a]: b }))`. */
  function SetBusy(l: LoadingStates, a: Action, b: bool): (m: LoadingStates)
    ensures Busy(m, a) == b
    ensures forall x :: x != a ==> Busy(m, x) == Busy(l, x)
  {
    match a
    case MakeTitles => l.(titles := b)
    case MakeScript => l.(script := b)
    case MakeSeo => l.(seo := b)
    case MakePrompts => l.(prompts := b)
    case MakeThumbnail => l.(thumbnail := b)
    case MakeVoice => l.(voice := b)
    case PlayDemo => l.(voiceDemo := b)
    case Download => l.(download := b)
  }

  /** The flags a loading record is determined by. */
  lemma LoadingExtensional(l: LoadingStates, m: LoadingStates)
    requires forall a :: Busy(l, a) == Busy(m, a)
    ensures l == m
  {
    assert Busy(l, MakeTitles) == Busy(m, MakeTitles) && Busy(l, MakeScript) == Busy(m, MakeScript);
    assert Busy(l, MakeSeo) == Busy(m, MakeSeo) && Busy(l, MakePrompts) == Busy(m, MakePrompts);
    assert Busy(l, MakeThumbnail) == Busy(m, MakeThumbnail) && Busy(l, MakeVoice) == Busy(m, MakeVoice);
    assert Busy(l, PlayDemo) == Busy(m, PlayDemo) && Busy(l, Download) == Busy(m, Download);
  }

  /** The flag is raised for the call and lowered in `finally`. */
  function Released(l: LoadingStates, a: Action): LoadingStates
  {
    SetBusy(SetBusy(l, a, true), a, false)
  }

  /** Its own flag ends lowered; the other flags are as they were. */
  predicate Settled(l: LoadingStates, m: LoadingStates, a: Action)
  {
    !Busy(m, a) && forall x :: x != a ==> Busy(m, x) == Busy(l, x)
  }

  // ---------------------------------------------------------------------
  // The fields of the session, one by one
  // ---------------------------------------------------------------------

  datatype Field =
    | InputText | InputFile | Language | Topic | NumTitles | TitleList | SelectedTitle
    | NumSections | WordsPerSection | ScriptText | Customization
    | SeoMeta
    | NumPrompts | PromptList | Style
    | SampleImage | Size | ThumbnailImage | UseWatermark | WatermarkText
    | Voice | VoiceAudio

  datatype Value =
    | Str(s: string)
    | File(file: Option<FileRef>)
    | Number(n: Num)
    | Choices(titles: seq<GeneratedTitle>)
    | Chosen(title: Option<GeneratedTitle>)
    | Meta(seo: Option<SeoData>)
    | Lines(lines: seq<string>)
    | Flag(b: bool)
    | Picture(uri: Option<string>)
    | Sound(audio: Option<AudioBuffer>)   // the buffer, seen as a plain audio buffer

  function Get(s: AppState, f: Field): Value
  {
    match f
    case InputText => Str(s.step1.input)
    case InputFile => File(s.step1.file)
    case Language => Str(s.step1.language)
    case Topic => Str(s.step1.topic)
    case NumTitles => Number(s.step1.numTitles)
    case TitleList => Choices(s.step1.titles)
    case SelectedTitle => Chosen(s.step1.selectedTitle)
    case NumSections => Number(s.step2.numSections)
    case WordsPerSection => Number(s.step2.wordsPerSection)
    case ScriptText => Str(s.step2.script)
    case Customization => Str(s.step2.customization)
    case SeoMeta => Meta(s.step3.seo)
    case NumPrompts => Number(s.step4.numPrompts)
    case PromptList => Lines(s.step4.prompts)
    case Style => Str(s.step4.style)
    case SampleImage => File(s.step5.file)
    case Size => Str(s.step5.size)
    case ThumbnailImage => Picture(s.step5.thumbnail)
    case UseWatermark => Flag(s.step5.useWatermark)
    case WatermarkText => Str(s.step5.watermarkText)
    case Voice => Str(s.step6.voice)
    case VoiceAudio => Sound(s.step6.voiceAudio)
  }

  /** The first field in which two sessions differ, if any. */
  function Diff(s: AppState, t: AppState): (d: Option<Field>)
    ensures d.None? <==> s == t
    ensures d.Some? ==> Get(s, d.value) != Get(t, d.value)
  {
    if s.step1 != t.step1 then Diff1(s, t)
    else if s.step2 != t.step2 then Diff2(s, t)
    else if s.step3 != t.step3 then Some(SeoMeta)
    else if s.step4 != t.step4 then Diff4(s, t)
    else if s.step5 != t.step5 then Diff5(s, t)
    else if s.step6.voice != t.step6.voice then Some(Voice)
    else if s.step6.voiceAudio != t.step6.voiceAudio then Some(VoiceAudio)
    else None
  }

  function Diff1(s: AppState, t: AppState): (d: Option<Field>)
    requires s.step1 != t.step1
    ensures d.Some? && Get(s, d.value) != Get(t, d.value)
  {
    if s.step1.input != t.step1.input then Some(InputText)
    else if s.step1.file != t.step1.file then Some(InputFile)
    else if s.step1.language != t.step1.language then Some(Language)
    else if s.step1.topic != t.step1.topic then Some(Topic)
    else if s.step1.numTitles != t.step1.numTitles then Some(NumTitles)
    else if s.step1.titles != t.step1.titles then Some(TitleList)
    else Some(SelectedTitle)
  }

  function Diff2(s: AppState, t: AppState): (d: Option<Field>)
    requires s.step2 != t.step2
    ensures d.Some? && Get(s, d.value) != Get(t, d.value)
  {
    if s.step2.numSections != t.step2.numSections then Some(NumSections)
    else if s.step2.wordsPerSection != t.step2.wordsPerSection then Some(WordsPerSection)
    else if s.step2.script != t.step2.script then Some(ScriptText)
    else Some(Customization)
  }

  function Diff4(s: AppState, t: AppState): (d: Option<Field>)
    requires s.step4 != t.step4
    ensures d.Some? && Get(s, d.value) != Get(t, d.value)
  {
    if s.step4.numPrompts != t.step4.numPrompts then Some(NumPrompts)
    else if s.step4.prompts != t.step4.prompts then Some(PromptList)
    else Some(Style)
  }

  function Diff5(s: AppState, t: AppState): (d: Option<Field>)
    requires s.step5 != t.step5
    ensures d.Some? && Get(s, d.value) != Get(t, d.value)
  {
    if s.step5.file != t.step5.file then Some(SampleImage)
    else if s.step5.size != t.step5.size then Some(Size)
    else if s.step5.thumbnail != t.step5.thumbnail then Some(ThumbnailImage)
    else if s.step5.useWatermark != t.step5.useWatermark then Some(UseWatermark)
    else Some(WatermarkText)
  }

  /** The fields enumerate the whole session: two sessions that agree on every field are equal. */
  lemma FieldsDetermineState(s: AppState, t: AppState)
    requires forall f :: Get(s, f) == Get(t, f)
    ensures s == t
  {
    if Diff(s, t).Some? {
      assert false;
    }
  }

  /** Every field outside `fs` is the same in both sessions. */
  predicate Unchanged(s: AppState, t: AppState, fs: set<Field>)
  {
    forall f :: f !in fs ==> Get(t, f) == Get(s, f)
  }

  // ---------------------------------------------------------------------
  // Guards, buttons and outcomes
  // ---------------------------------------------------------------------

  /** The check each handler makes before it calls the gateway. */
  predicate Guard(s: AppState, a: Action)
  {
    match a
    case MakeTitles => s.step1.input != []
    case MakeScript => s.step1.selectedTitle.Some?
    case MakeSeo => s.step1.selectedTitle.Some? && s.step2.script != []
    case MakePrompts => s.step2.script != []
    case MakeThumbnail => s.step1.selectedTitle.Some?
    case MakeVoice => s.step2.script != []
    case PlayDemo => true
    case Download => true
  }

  /** The button of an action is not disabled. */
  predicate Enabled(u: Ui, a: Action)
  {
    && !Busy(u.loading, a)
    && match a
       case MakeScript => u.state.step1.selectedTitle.Some?
       case MakeSeo => u.state.step2.script != []
       case MakePrompts => u.state.step2.script != []
       case MakeThumbnail => u.state.step1.selectedTitle.Some?
       case MakeVoice => u.state.step2.script != []
       case _ => true
  }

  /** The handler refused: nothing but the notification changes. */
  predicate Refusal(u: Ui, v: Ui, a: Action)
  {
    v.state == u.state && v.loading == u.loading && v.notice == Some(Refused(a))
  }

  /** The call ran and ended without a result to store: the session is untouched. */
  predicate Ended(u: Ui, v: Ui, a: Action, n: Notice)
  {
    v.state == u.state && Settled(u.loading, v.loading, a) && v.notice == Some(n)
  }

  /** The call ran and its result replaced field `f`, and nothing else. */
  predicate Stored(u: Ui, v: Ui, a: Action, f: Field, x: Value)
  {
    Get(v.state, f) == x && Unchanged(u.state, v.state, {f}) && Settled(u.loading, v.loading, a) && v.notice == u.notice
  }

  function Notify(u: Ui, n: Notice): Ui
  {
    u.(notice := Some(n))
  }

  // ---------------------------------------------------------------------
  // The handlers
  // ---------------------------------------------------------------------

  /** `handleGenerateTitles`, given how the service's promise settled. */
  function OnTitles(u: Ui, r: Outcome<seq<GeneratedTitle>>): (v: Ui)
    ensures u.state.step1.input == [] ==> Refusal(u, v, MakeTitles)
    ensures u.state.step1.input != [] && r.Rejected? ==> Ended(u, v, MakeTitles, Failed(MakeTitles))
    ensures u.state.step1.input != [] && r.Resolved? ==> Stored(u, v, MakeTitles, TitleList, Choices(r.value))
  {
    if !Guard(u.state, MakeTitles) then Notify(u, Refused(MakeTitles))
    else
      var l := Released(u.loading, MakeTitles);
      match r
      case Rejected => Notify(u.(loading := l), Failed(MakeTitles))
      case Resolved(titles) => u.(state := u.state.(step1 := u.state.step1.(titles := titles)), loading := l)
  }

  /** `handleGenerateScript`. */
  function OnScript(u: Ui, r: Outcome<string>): (v: Ui)
    ensures u.state.step1.selectedTitle.None? ==> Refusal(u, v, MakeScript)
    ensures u.state.step1.selectedTitle.Some? && r.Rejected? ==> Ended(u, v, MakeScript, Failed(MakeScript))
    ensures u.state.step1.selectedTitle.Some? && r.Resolved? ==> Stored(u, v, MakeScript, ScriptText, Str(r.value))
  {
    if !Guard(u.state, MakeScript) then Notify(u, Refused(MakeScript))
    else
      var l := Released(u.loading, MakeScript);
      match r
      case Rejected => Notify(u.(loading := l), Failed(MakeScript))
      case Resolved(script) => u.(state := u.state.(step2 := u.state.step2.(script := script)), loading := l)
  }

  /** `handleGenerateSeo`. */
  function OnSeo(u: Ui, r: Outcome<SeoData>): (v: Ui)
    ensures u.state.step1.selectedTitle.None? || u.state.step2.script == [] ==> Refusal(u, v, MakeSeo)
    ensures Guard(u.state, MakeSeo) && r.Rejected? ==> Ended(u, v, MakeSeo, Failed(MakeSeo))
    ensures Guard(u.state, MakeSeo) && r.Resolved? ==> Stored(u, v, MakeSeo, SeoMeta, Meta(Some(r.value)))
  {
    if !Guard(u.state, MakeSeo) then Notify(u, Refused(MakeSeo))
    else
      var l := Released(u.loading, MakeSeo);
      match r
      case Rejected => Notify(u.(loading := l), Failed(MakeSeo))
      case Resolved(seo) => u.(state := u.state.(step3 := Step3(Some(seo))), loading := l)
  }

  /** `handleGeneratePrompts`. */
  function OnPrompts(u: Ui, r: Outcome<seq<string>>): (v: Ui)
    ensures u.state.step2.script == [] ==> Refusal(u, v, MakePrompts)
    ensures u.state.step2.script != [] && r.Rejected? ==> Ended(u, v, MakePrompts, Failed(MakePrompts))
    ensures u.state.step2.script != [] && r.Resolved? ==> Stored(u, v, MakePrompts, PromptList, Lines(r.value))
  {
    if !Guard(u.state, MakePrompts) then Notify(u, Refused(MakePrompts))
    else
      var l := Released(u.loading, MakePrompts);
      match r
      case Rejected => Notify(u.(loading := l), Failed(MakePrompts))
      case Resolved(prompts) => u.(state := u.state.(step4 := u.state.step4.(prompts := prompts)), loading := l)
  }

  /** `handleGenerateThumbnail`: a `null` result is stored too, replacing any previous thumbnail. */
  function OnThumbnail(u: Ui, r: Outcome<Option<string>>): (v: Ui)
    ensures u.state.step1.selectedTitle.None? ==> Refusal(u, v, MakeThumbnail)
    ensures u.state.step1.selectedTitle.Some? && r.Rejected? ==> Ended(u, v, MakeThumbnail, Failed(MakeThumbnail))
    ensures u.state.step1.selectedTitle.Some? && r.Resolved? ==> Stored(u, v, MakeThumbnail, ThumbnailImage, Picture(r.value))
  {
    if !Guard(u.state, MakeThumbnail) then Notify(u, Refused(MakeThumbnail))
    else
      var l := Released(u.loading, MakeThumbnail);
      match r
      case Rejected => Notify(u.(loading := l), Failed(MakeThumbnail))
      case Resolved(thumbnail) => u.(state := u.state.(step5 := u.state.step5.(thumbnail := thumbnail)), loading := l)
  }

  /** `handleGenerateVoice`: a `null` result leaves the previous voice-over in place. */
  function OnVoice(u: Ui, r: Outcome<Option<PcmBuffer>>): (v: Ui)
    ensures u.state.step2.script == [] ==> Refusal(u, v, MakeVoice)
    ensures u.state.step2.script != [] && r.Rejected? ==> Ended(u, v, MakeVoice, Failed(MakeVoice))
    ensures u.state.step2.script != [] && r == Resolved(None) ==> Ended(u, v, MakeVoice, Unavailable(MakeVoice))
    ensures u.state.step2.script != [] && r.Resolved? && r.value.Some? ==> Stored(u, v, MakeVoice, VoiceAudio, Sound(r.value))
  {
    if !Guard(u.state, MakeVoice) then Notify(u, Refused(MakeVoice))
    else
      var l := Released(u.loading, MakeVoice);
      match r
      case Rejected => Notify(u.(loading := l), Failed(MakeVoice))
      case Resolved(None) => Notify(u.(loading := l), Unavailable(MakeVoice))
      case Resolved(Some(audio)) => u.(state := u.state.(step6 := u.state.step6.(voiceAudio := Some(audio))), loading := l)
  }

  /** `handlePlayDemoVoice`: playing the sample is output only, so the session never changes. */
  function OnDemo(u: Ui, r: Outcome<Option<PcmBuffer>>): (v: Ui)
    ensures v.state == u.state && Settled(u.loading, v.loading, PlayDemo)
    ensures r.Rejected? ==> v.notice == Some(Failed(PlayDemo))
    ensures r == Resolved(None) ==> v.notice == Some(Unavailable(PlayDemo))
    ensures r.Resolved? && r.value.Some? ==> v.notice == u.notice
  {
    var l := Released(u.loading, PlayDemo);
    match r
    case Rejected => Notify(u.(loading := l), Failed(PlayDemo))
    case Resolved(None) => Notify(u.(loading := l), Unavailable(PlayDemo))
    case Resolved(Some(_)) => u.(loading := l)
  }

  /**
   * `handleDownloadAll`. `Fault` is a throw inside `downloadZip` (the fetch of
   * the thumbnail), caught by the handler. `Reply(true)` is an archive that was
   * generated and handed to the browser; `Reply(false)` is an archive whose
   * generation failed after the handler returned, which nobody reports.
   */
  function OnDownload(u: Ui, call: Call<bool>): (v: Ui)
    ensures v.state == u.state && Settled(u.loading, v.loading, Download)
    ensures call.Fault? ==> v.notice == Some(Failed(Download))
    ensures call == Reply(true) ==> v.notice == Some(Saved)
    ensures call == Reply(false) ==> v.notice == u.notice
  {
    var l := Released(u.loading, Download);
    match call
    case Fault => Notify(u.(loading := l), Failed(Download))
    case Reply(generated) => if generated then Notify(u.(loading := l), Saved) else u.(loading := l)
  }

  // ---------------------------------------------------------------------
  // Events
  // ---------------------------------------------------------------------

  /** A change to a form control. Select values arrive as text. */
  datatype Edit =
    | ChooseInputFile(file: Option<FileRef>)       // the step-1 file input
    | InputFileRead(text: string)                  // the `FileReader` finished
    | EditInput(text: string)                      // typing in the step-1 text area
    | SelectLanguage(value: string)
    | SelectTopic(value: string)
    | SelectNumTitles(value: string)
    | SelectTitle(title: GeneratedTitle)           // a click on a proposed title
    | SelectNumSections(value: string)
    | SelectWordsPerSection(value: string)
    | SelectCustomization(value: string)
    | EditNumPrompts(value: string)
    | SelectStyle(value: string)
    | ChooseSampleImage(file: Option<FileRef>)     // the step-5 file input
    | SelectSize(value: string)
    | ToggleWatermark(checked: bool)
    | EditWatermark(text: string)
    | SelectVoice(value: string)

  /**
   * A button press, with how the promise of the service it calls settled
   * (the service functions of the `Gateway` module say how a reply settles it).
   */
  datatype Button =
    | GenerateTitles(titles: Outcome<seq<GeneratedTitle>>)
    | GenerateScript(script: Outcome<string>)
    | GenerateSeo(seo: Outcome<SeoData>)
    | GeneratePrompts(prompts: Outcome<seq<string>>)
    | GenerateThumbnail(thumbnail: Outcome<Option<string>>)
    | GenerateVoice(voiceAudio: Outcome<Option<PcmBuffer>>)
    | PlayDemoVoice(demoAudio: Outcome<Option<PcmBuffer>>)
    | DownloadAll(archive: Call<bool>)

  datatype Event =
    | Edited(edit: Edit)
    | Pressed(button: Button)
    | NoticeExpired                                // the three-second timer fired

  /** The `onChange` handlers of the form; `parseInt(value, 10)` for the numeric ones. */
  function Apply(s: AppState, x: Edit): AppState
  {
    match x
    case ChooseInputFile(file) => s.(step1 := s.step1.(file := file, input := ""))
    case InputFileRead(text) => s.(step1 := s.step1.(input := text))
    case EditInput(text) => s.(step1 := s.step1.(input := text, file := None))
    case SelectLanguage(value) => s.(step1 := s.step1.(language := value))
    case SelectTopic(value) => s.(step1 := s.step1.(topic := value))
    case SelectNumTitles(value) => s.(step1 := s.step1.(numTitles := ParseInt(value)))
    case SelectTitle(title) => s.(step1 := s.step1.(selectedTitle := Some(title)))
    case SelectNumSections(value) => s.(step2 := s.step2.(numSections := ParseInt(value)))
    case SelectWordsPerSection(value) => s.(step2 := s.step2.(wordsPerSection := ParseInt(value)))
    case SelectCustomization(value) => s.(step2 := s.step2.(customization := value))
    case EditNumPrompts(value) => s.(step4 := s.step4.(numPrompts := ParseInt(value)))
    case SelectStyle(value) => s.(step4 := s.step4.(style := value))
    case ChooseSampleImage(file) => s.(step5 := s.step5.(file := file))
    case SelectSize(value) => s.(step5 := s.step5.(size := value))
    case ToggleWatermark(checked) => s.(step5 := s.step5.(useWatermark := checked))
    case EditWatermark(text) => s.(step5 := s.step5.(watermarkText := text))
    case SelectVoice(value) => s.(step6 := s.step6.(voice := value))
  }

  function ActionOf(b: Button): Action
  {
    match b
    case GenerateTitles(_) => MakeTitles
    case GenerateScript(_) => MakeScript
    case GenerateSeo(_) => MakeSeo
    case GeneratePrompts(_) => MakePrompts
    case GenerateThumbnail(_) => MakeThumbnail
    case GenerateVoice(_) => MakeVoice
    case PlayDemoVoice(_) => PlayDemo
    case DownloadAll(_) => Download
  }

  /** The handler of a button. */
  function Press(u: Ui, b: Button): Ui
  {
    match b
    case GenerateTitles(r) => OnTitles(u, r)
    case GenerateScript(r) => OnScript(u, r)
    case GenerateSeo(r) => OnSeo(u, r)
    case GeneratePrompts(r) => OnPrompts(u, r)
    case GenerateThumbnail(r) => OnThumbnail(u, r)
    case GenerateVoice(r) => OnVoice(u, r)
    case PlayDemoVoice(r) => OnDemo(u, r)
    case DownloadAll(call) => OnDownload(u, call)
  }

  function Step(u: Ui, e: Event): Ui
  {
    match e
    case Edited(x) => u.(state := Apply(u.state, x))
    case Pressed(b) => Press(u, b)
    case NoticeExpired => u.(notice := None)
  }

  /** The session fields a form control writes. */
  function EditWrites(x: Edit): set<Field>
  {
    match x
    case ChooseInputFile(_) => {InputFile, InputText}
    case InputFileRead(_) => {InputText}
    case EditInput(_) => {InputText, InputFile}
    case SelectLanguage(_) => {Language}
    case SelectTopic(_) => {Topic}
    case SelectNumTitles(_) => {NumTitles}
    case SelectTitle(_) => {SelectedTitle}
    case SelectNumSections(_) => {NumSections}
    case SelectWordsPerSection(_) => {WordsPerSection}
    case SelectCustomization(_) => {Customization}
    case EditNumPrompts(_) => {NumPrompts}
    case SelectStyle(_) => {Style}
    case ChooseSampleImage(_) => {SampleImage}
    case SelectSize(_) => {Size}
    case ToggleWatermark(_) => {UseWatermark}
    case EditWatermark(_) => {WatermarkText}
    case SelectVoice(_) => {Voice}
  }

  /** The session fields a button writes: the field its result is stored in. */
  function ButtonWrites(b: Button): set<Field>
  {
    match b
    case GenerateTitles(_) => {TitleList}
    case GenerateScript(_) => {ScriptText}
    case GenerateSeo(_) => {SeoMeta}
    case GeneratePrompts(_) => {PromptList}
    case GenerateThumbnail(_) => {ThumbnailImage}
    case GenerateVoice(_) => {VoiceAudio}
    case PlayDemoVoice(_) => {}
    case DownloadAll(_) => {}
  }

  function Writes(e: Event): set<Field>
  {
    match e
    case Edited(x) => EditWrites(x)
    case Pressed(b) => ButtonWrites(b)
    case NoticeExpired => {}
  }

  lemma EditFrame(s: AppState, x: Edit)
    ensures Unchanged(s, Apply(s, x), EditWrites(x))
  {
  }

  lemma PressFrame(u: Ui, b: Button)
    ensures Unchanged(u.state, Press(u, b).state, ButtonWrites(b))
  {
  }

  /** No event writes a field outside its own set. */
  lemma StepFrame(u: Ui, e: Event)
    ensures Unchanged(u.state, Step(u, e).state, Writes(e))
  {
    match e
    case Edited(x) => EditFrame(u.state, x);
    case Pressed(b) => PressFrame(u, b);
    case NoticeExpired =>
  }

  /** Only buttons touch the loading flags, and a button touches its own flag only, and only past its guard. */
  lemma StepLoading(u: Ui, e: Event)
    ensures !e.Pressed? ==> Step(u, e).loading == u.loading
    ensures e.Pressed? && Guard(u.state, ActionOf(e.button)) ==>
              Settled(u.loading, Step(u, e).loading, ActionOf(e.button))
    ensures e.Pressed? && !Guard(u.state, ActionOf(e.button)) ==>
              Step(u, e) == Notify(u, Refused(ActionOf(e.button)))
  {
  }

  /** Choosing a step-1 file clears the text, typing clears the file, and choosing a title sets only the title. */
  lemma InputEvents(s: AppState, file: Option<FileRef>, text: string, title: GeneratedTitle)
    ensures Get(Apply(s, ChooseInputFile(file)), InputFile) == File(file)
    ensures Get(Apply(s, ChooseInputFile(file)), InputText) == Str([])
    ensures Get(Apply(s, EditInput(text)), InputText) == Str(text)
    ensures Get(Apply(s, EditInput(text)), InputFile) == File(None)
    ensures Get(Apply(s, SelectTitle(title)), SelectedTitle) == Chosen(Some(title))
    ensures Unchanged(s, Apply(s, SelectTitle(title)), {SelectedTitle})
  {
    EditFrame(s, SelectTitle(title));
  }

  // ---------------------------------------------------------------------
  // Requests
  // ---------------------------------------------------------------------

  /** `input.split(/\s+/).filter(Boolean).length > 50`: the input counts as original content. */
  predicate CustomizationEnabled(s: AppState)
  {
    WordCount(s.step1.input) > 50
  }

  /** The `originalContent` argument of the script request. */
  function OriginalContent(s: AppState): (r: Option<string>)
    ensures r.Some? <==> CustomizationEnabled(s)
    ensures r.Some? ==> r.value == s.step1.input && r.value != []
  {
    if CustomizationEnabled(s) then Some(s.step1.input) else None
  }

  function ScriptRequestOf(s: AppState): ScriptPrompt
    requires s.step1.selectedTitle.Some?
  {
    ScriptRequest(s.step1.selectedTitle.value.title, s.step2.numSections, s.step2.wordsPerSection,
                  s.step1.language, s.step2.customization, OriginalContent(s))
  }

  /** The script is developed from the input exactly when the customization selector is enabled. */
  lemma OriginalContentBranch(s: AppState)
    requires s.step1.selectedTitle.Some?
    ensures ScriptRequestOf(s).guidance.FromOriginal? <==> CustomizationEnabled(s)
    ensures ScriptRequestOf(s).guidance.FromOriginal? ==> ScriptRequestOf(s).guidance.original == s.step1.input
    ensures ScriptRequestOf(s).guidance.customization == s.step2.customization
  {
  }

  /** What a handler sends to the gateway. */
  datatype Request =
    | TitlesCall(content: string, language: string, topic: string, numTitles: Num)
    | ScriptCall(scriptPrompt: ScriptPrompt)
    | SeoCall(seoPrompt: SeoPrompt)
    | PromptsCall(script: string, numPrompts: Num, language: string, style: string)
    | ThumbnailCall(title: string, script: string, size: string, language: string, style: string,
                    sample: Option<FileRef>, useWatermark: bool, watermarkText: string)
    | VoiceCall(script: string, voice: string)
    | DemoCall(voice: string)
    | ArchiveCall(state: AppState)

  /** What the handler of an action sends once its guard has passed. */
  function RequestOf(s: AppState, a: Action): Request
    requires Guard(s, a)
  {
    match a
    case MakeTitles => TitlesCall(s.step1.input, s.step1.language, s.step1.topic, s.step1.numTitles)
    case MakeScript => ScriptCall(ScriptRequestOf(s))
    case MakeSeo => SeoCall(SeoRequest(s.step1.selectedTitle.value.title, s.step2.script, s.step1.language))
    case MakePrompts => PromptsCall(s.step2.script, s.step4.numPrompts, s.step1.language, s.step4.style)
    case MakeThumbnail =>
      ThumbnailCall(s.step1.selectedTitle.value.title, s.step2.script, s.step5.size, s.step1.language,
                    s.step4.style, s.step5.file, s.step5.useWatermark, s.step5.watermarkText)
    case MakeVoice => VoiceCall(s.step2.script, s.step6.voice)
    case PlayDemo => DemoCall(s.step6.voice)
    case Download => ArchiveCall(s)
  }

  /** The request an event makes: none for form events, none when the guard refuses. */
  function Sent(u: Ui, e: Event): (r: Option<Request>)
    ensures r.Some? <==> e.Pressed? && Guard(u.state, ActionOf(e.button))
  {
    match e
    case Pressed(b) => if Guard(u.state, ActionOf(b)) then Some(RequestOf(u.state, ActionOf(b))) else None
    case _ => None
  }

  /** The thumbnail prompt a thumbnail request leads to, given the answer of the vision step. */
  function ThumbnailPromptOf(r: Request, vision: Call<string>): (p: ThumbnailPrompt)
    requires r.ThumbnailCall?
    ensures p.watermark.Some? <==> r.useWatermark && r.watermarkText != []
    ensures p.style.Overall? <==> r.sample.None?
    ensures p.summary <= r.script
  {
    ThumbnailRequest(r.title, r.script, r.size, r.language, r.style, r.sample, vision, r.useWatermark, r.watermarkText)
  }

  /** Without a selected title the script handler makes no call and changes nothing but the notification. */
  lemma ScriptNeedsTitle(u: Ui, r: Outcome<string>)
    requires u.state.step1.selectedTitle.None?
    ensures Sent(u, Pressed(GenerateScript(r))).None?
    ensures Step(u, Pressed(GenerateScript(r))) == u.(notice := Some(Refused(MakeScript)))
  {
  }

  /** An unparsable titles answer empties the title list; the selected title stays. */
  lemma TitlesParseFailure(u: Ui)
    requires u.state.step1.input != []
    ensures var v := Step(u, Pressed(GenerateTitles(ListReply(Reply(None)))));
      v.state.step1.titles == [] && v.state.step1.selectedTitle == u.state.step1.selectedTitle && v.notice == u.notice
  {
  }

  /** An unparsable SEO answer is reported as a failure and keeps the previous metadata. */
  lemma SeoParseFailure(u: Ui)
    requires Guard(u.state, MakeSeo)
    ensures var v := Step(u, Pressed(GenerateSeo(SeoReply(Reply(None)))));
      v.state == u.state && v.notice == Some(Failed(MakeSeo))
  {
  }

  // ---------------------------------------------------------------------
  // Invariants over runs
  // ---------------------------------------------------------------------

  function Run(u: Ui, es: seq<Event>): Ui
    decreases |es|
  {
    if es == [] then u else Run(Step(u, es[0]), es[1..])
  }

  /** A script only ever exists for a selected title. */
  predicate Coherent(s: AppState)
  {
    s.step2.script != [] ==> s.step1.selectedTitle.Some?
  }

  lemma StepCoherent(u: Ui, e: Event)
    requires Coherent(u.state)
    ensures Coherent(Step(u, e).state)
  {
  }

  lemma {:induction false} RunCoherent(u: Ui, es: seq<Event>)
    requires Coherent(u.state)
    ensures Coherent(Run(u, es).state)
    decreases |es|
  {
    if es != [] {
      StepCoherent(u, es[0]);
      RunCoherent(Step(u, es[0]), es[1..]);
    }
  }

  /** Handlers run one after another, so between events nothing is loading. */
  lemma {:induction false} RunIdle(u: Ui, es: seq<Event>)
    requires u.loading == Idle()
    ensures Run(u, es).loading == Idle()
    decreases |es|
  {
    if es != [] {
      var v := Step(u, es[0]);
      StepLoading(u, es[0]);
      if es[0].Pressed? && Guard(u.state, ActionOf(es[0].button)) {
        LoadingExtensional(v.loading, Idle());
      }
      RunIdle(v, es[1..]);
    }
  }

  /**
   * An enabled button passes its handler's guard in every coherent state,
   * except the titles button, which stays enabled on an empty input.
   */
  lemma EnabledPassesGuard(u: Ui, a: Action)
    requires Coherent(u.state) && Enabled(u, a) && a != MakeTitles
    ensures Guard(u.state, a)
  {
  }

  lemma TitlesButtonRefuses()
    ensures Enabled(Start(), MakeTitles) && !Guard(Start().state, MakeTitles)
  {
  }

  /** The texts of a list of numeric options. */
  function Shown(ns: seq<nat>): (ts: seq<string>)
    ensures |ts| == |ns|
    ensures forall i :: 0 <= i < |ns| ==> ts[i] == Show(ns[i])
  {
    if ns == [] then [] else [Show(ns[0])] + Shown(ns[1..])
  }

  /** A value the control can produce in this state: select values come from their options, disabled controls produce none. */
  predicate EditOffered(s: AppState, x: Edit, f: Form)
  {
    match x
    case SelectLanguage(value) => value in f.languages
    case SelectTopic(value) => value in f.topics
    case SelectNumTitles(value) => value in Shown(f.numTitles)
    case SelectTitle(title) => title in s.step1.titles
    case SelectNumSections(value) => value in Shown(f.numSections)
    case SelectWordsPerSection(value) => value in Shown(f.wordsPerSection)
    case SelectCustomization(value) => value in f.customizations && CustomizationEnabled(s)
    case SelectStyle(value) => value in f.styles
    case SelectSize(value) => value in f.sizes
    case EditWatermark(_) => s.step5.useWatermark
    case SelectVoice(value) => value in f.voices
    case _ => true
  }

  /** An event a page with form `f` can produce in this state. */
  predicate Offered(u: Ui, e: Event, f: Form)
  {
    match e
    case Edited(x) => EditOffered(u.state, x, f)
    case Pressed(b) => Enabled(u, ActionOf(b))
    case NoticeExpired => true
  }

  /** A numeric select whose value is one of its option texts stores that option. */
  lemma ShownParses(value: string, ns: seq<nat>)
    requires value in Shown(ns)
    ensures NumIn(ParseInt(value), ns)
  {
    var i :| 0 <= i < |ns| && Shown(ns)[i] == value;
    ParseIntShow(ns[i]);
  }

  /** The fields the selects write. */
  const CONFIG_FIELDS: set<Field> := {Language, Topic, NumTitles, NumSections, WordsPerSection, Customization, Style, Size, Voice}

  /** The select fields of two sessions agree. */
  predicate SameConfig(s: AppState, t: AppState)
  {
    && t.step1.language == s.step1.language && t.step1.topic == s.step1.topic
    && t.step1.numTitles == s.step1.numTitles
    && t.step2.numSections == s.step2.numSections && t.step2.wordsPerSection == s.step2.wordsPerSection
    && t.step2.customization == s.step2.customization
    && t.step4.style == s.step4.style && t.step5.size == s.step5.size && t.step6.voice == s.step6.voice
  }

  /** A change that writes no select field keeps every select as it was. */
  lemma UnchangedConfig(s: AppState, t: AppState, fs: set<Field>)
    requires Unchanged(s, t, fs) && fs !! CONFIG_FIELDS
    ensures SameConfig(s, t)
  {
    assert Get(t, Language) == Get(s, Language) && Get(t, Topic) == Get(s, Topic);
    assert Get(t, NumTitles) == Get(s, NumTitles) && Get(t, NumSections) == Get(s, NumSections);
    assert Get(t, WordsPerSection) == Get(s, WordsPerSection) && Get(t, Customization) == Get(s, Customization);
    assert Get(t, Style) == Get(s, Style) && Get(t, Size) == Get(s, Size) && Get(t, Voice) == Get(s, Voice);
  }

  lemma ConfigTransfer(s: AppState, t: AppState, f: Form)
    requires SelectsValid(s, f) && SameConfig(s, t)
    ensures SelectsValid(t, f)
  {
  }

  /** A select set to one of its options keeps the form valid. */
  lemma SelectConfigValid(s: AppState, x: Edit, f: Form)
    requires SelectsValid(s, f) && EditOffered(s, x, f) && EditWrites(x) <= CONFIG_FIELDS
    ensures SelectsValid(Apply(s, x), f)
  {
    match x
    case SelectNumTitles(value) => ShownParses(value, f.numTitles);
    case SelectNumSections(value) => ShownParses(value, f.numSections);
    case SelectWordsPerSection(value) => ShownParses(value, f.wordsPerSection);
    case _ =>
  }

  /** A form control the form offers keeps every select valid. */
  lemma EditConfigValid(s: AppState, x: Edit, f: Form)
    requires SelectsValid(s, f) && EditOffered(s, x, f)
    ensures SelectsValid(Apply(s, x), f)
  {
    if EditWrites(x) <= CONFIG_FIELDS {
      SelectConfigValid(s, x, f);
    } else {
      EditFrame(s, x);
      UnchangedConfig(s, Apply(s, x), EditWrites(x));
      ConfigTransfer(s, Apply(s, x), f);
    }
  }

  /** No button writes a select. */
  lemma PressConfigValid(u: Ui, b: Button, f: Form)
    requires SelectsValid(u.state, f)
    ensures SelectsValid(Press(u, b).state, f)
  {
    PressFrame(u, b);
    UnchangedConfig(u.state, Press(u, b).state, ButtonWrites(b));
    ConfigTransfer(u.state, Press(u, b).state, f);
  }

  lemma StepConfigValid(u: Ui, e: Event, f: Form)
    requires SelectsValid(u.state, f) && Offered(u, e, f)
    ensures SelectsValid(Step(u, e).state, f)
  {
    match e
    case Edited(x) => EditConfigValid(u.state, x, f);
    case Pressed(b) => PressConfigValid(u, b, f);
    case NoticeExpired =>
  }

  /** A trace of events a page with form `f` can produce. */
  predicate Admissible(u: Ui, es: seq<Event>, f: Form)
    decreases |es|
  {
    es == [] || (Offered(u, es[0], f) && Admissible(Step(u, es[0]), es[1..], f))
  }

  /** Every select keeps holding one of its options along any trace the form can produce. */
  lemma {:induction false} RunConfigValid(u: Ui, es: seq<Event>, f: Form)
    requires SelectsValid(u.state, f) && Admissible(u, es, f)
    ensures SelectsValid(Run(u, es).state, f)
    decreases |es|
  {
    if es != [] {
      StepConfigValid(u, es[0], f);
      RunConfigValid(Step(u, es[0]), es[1..], f);
    }
  }

  /** From the start, along any trace the page can produce, the form holds valid options and nothing stays loading. */
  lemma Reachable(es: seq<Event>)
    requires Admissible(Start(), es, FORM)
    ensures ConfigValid(Run(Start(), es).state)
    ensures Coherent(Run(Start(), es).state)
    ensures Run(Start(), es).loading == Idle()
  {
    InitialConfigValid();
    RunConfigValid(Start(), es, FORM);
    RunCoherent(Start(), es);
    RunIdle(Start(), es);
  }
}

=== FILE: session.dfy ===
/**
 * The session record of the application (`AppState`), one slice per step of
 * the workflow, the loading flags (`LoadingStates`), and the state the
 * application starts from.
 */
module Session {
  import opened Wrappers
  import opened Text
  import opened Audio
  import opened Config

  /** A title proposed by the title service. */
  datatype GeneratedTitle = GeneratedTitle(title: string, youtubeTrendScore: real)

  datatype SeoData = SeoData(description: string, hashtags: string, tags: string)

  /** A file chosen in a file input; only its name reaches the logic. */
  datatype FileRef = FileRef(name: string, mimeType: string)

  /** Step 1: source text, language, topic, how many titles, the titles and the chosen one. */
  datatype Step1 = Step1(
    input: string,
    file: Option<FileRef>,
    language: string,
    topic: string,
    numTitles: Num,
    titles: seq<GeneratedTitle>,
    selectedTitle: Option<GeneratedTitle>)

  /** Step 2: the script and its shape. */
  datatype Step2 = Step2(numSections: Num, wordsPerSection: Num, script: string, customization: string)

  /** Step 3: the SEO metadata. */
  datatype Step3 = Step3(seo: Option<SeoData>)

  /** Step 4: the image prompts. */
  datatype Step4 = Step4(numPrompts: Num, prompts: seq<string>, style: string)

  /** Step 5: the thumbnail, as a `data:` URI, and its options. */
  datatype Step5 = Step5(
    file: Option<FileRef>,
    size: string,
    thumbnail: Option<string>,
    useWatermark: bool,
    watermarkText: string)

  /** Step 6: the voice-over. */
  datatype Step6 = Step6(voice: string, voiceAudio: Option<PcmBuffer>)

  datatype AppState = AppState(step1: Step1, step2: Step2, step3: Step3, step4: Step4, step5: Step5, step6: Step6)

  datatype LoadingStates = LoadingStates(
    titles: bool, script: bool, seo: bool, prompts: bool,
    thumbnail: bool, voice: bool, download: bool, voiceDemo: bool)

  /** The state the application starts from. */
  function Initial(): (s: AppState)
    ensures s.step1.input == [] && s.step1.titles == [] && s.step1.selectedTitle.None?
    ensures s.step2.script == [] && s.step3.seo.None? && s.step4.prompts == []
    ensures s.step5.thumbnail.None? && s.step6.voiceAudio.None?
  {
    AppState(
      Step1("", None, "Vietnamese", "Lịch Sử", Int(5), [], None),
      Step2(Int(5), Int(500), "", "Mở rộng"),
      Step3(None),
      Step4(Int(1), [], "Cinematic"),
      Step5(None, "1280x720", None, false, ""),
      Step6("Kore", None))
  }

  /** Nothing is loading at start. */
  function Idle(): LoadingStates
  {
    LoadingStates(false, false, false, false, false, false, false, false)
  }

  /** A form field holds a number one of its options shows. */
  predicate NumIn(n: Num, options: seq<nat>)
  {
    n.Int? && n.value >= 0 && n.value as nat in options
  }

  /** Every select holds one of the options the form offers. */
  predicate SelectsValid(s: AppState, f: Form)
  {
    && s.step1.language in f.languages
    && s.step1.topic in f.topics
    && NumIn(s.step1.numTitles, f.numTitles)
    && NumIn(s.step2.numSections, f.numSections)
    && NumIn(s.step2.wordsPerSection, f.wordsPerSection)
    && s.step2.customization in f.customizations
    && s.step4.style in f.styles
    && s.step5.size in f.sizes
    && s.step6.voice in f.voices
  }

  /** Every select of the page holds one of its options. */
  predicate ConfigValid(s: AppState)
  {
    SelectsValid(s, FORM)
  }

  /** Each default of the initial state is one of the options its select offers. */
  lemma InitialConfigValid()
    ensures ConfigValid(Initial())
  {
    assert Values(LANGUAGE_OPTIONS)[0] == "Vietnamese";
    assert SCRIPT_SECTIONS_OPTIONS[0] == 5;
    assert Values(THUMBNAIL_SIZES)[0] == "1280x720";
    assert Values(VOICES)[0] == "Kore";
  }
}

=== FILE: slug.dfy ===
/**
 * The archive name of `downloadZip`: the selected title is decomposed (NFD),
 * stripped of combining marks, lowercased, `đ` becomes `d`, every run of
 * spaces becomes `-`, characters other than `\w` and `-` are dropped, runs of
 * `-` collapse to one, and `-` is trimmed from both ends. An empty result, or
 * no selected title, gives the slug `content`.
 */
module Slug {
  import opened Wrappers
  import opened Text

  /** Every character of `s` satisfies `p`. */
  predicate Every(p: char -> bool, s: string)
  {
    s == [] || (p(s[0]) && Every(p, s[1..]))
  }

  /** The characters of `s` that satisfy `p`, in order. */
  function Filter(p: char -> bool, s: string): (r: string)
    ensures |r| <= |s| && Every(p, r)
  {
    if s == [] then []
    else if p(s[0]) then [s[0]] + Filter(p, s[1..])
    else Filter(p, s[1..])
  }

  /** The combining diacritical marks, U+0300 to U+036F, removed after NFD. */
  predicate IsMark(c: char)
  {
    '\U{0300}' <= c <= '\U{036F}'
  }

  predicate NotMark(c: char)
  {
    !IsMark(c)
  }

  predicate IsUpper(c: char)
  {
    'A' <= c <= 'Z'
  }

  predicate NotUpper(c: char)
  {
    !IsUpper(c)
  }

  predicate NotSpace(c: char)
  {
    !IsSpace(c)
  }

  predicate NotDash(c: char)
  {
    c != '-'
  }

  /** `\w` of a JavaScript regular expression without the `u` flag: ASCII letters, digits and `_`. */
  predicate IsWordChar(c: char)
  {
    'a' <= c <= 'z' || 'A' <= c <= 'Z' || '0' <= c <= '9' || c == '_'
  }

  /** What survives `.replace(/[^\w\-]+/g, '')`. */
  predicate IsKept(c: char)
  {
    IsWordChar(c) || c == '-'
  }

  /** The alphabet of a slug: lower-case ASCII letters, digits, `_` and `-`. */
  predicate IsSlugChar(c: char)
  {
    'a' <= c <= 'z' || '0' <= c <= '9' || c == '_' || c == '-'
  }

  /**
   * `toLowerCase` on one character, for the characters whose lower case can
   * reach the `\w` filter: ASCII capitals, the Kelvin sign (U+212A, to `k`),
   * capital I with dot above (U+0130, to `i` and U+0307) and `Đ` (U+0110, to
   * `đ`, which the next step turns into `d`). Every other character, and its
   * lower case, is neither `\w`, `-`, a space nor `đ`, so the slug does not
   * depend on it.
   */
  function LowerChar(c: char): (r: string)
    ensures IsUpper(c) ==> r == [('a' as int + (c as int - 'A' as int)) as char]
    ensures c == '\U{212A}' ==> r == "k"
    ensures c == '\U{0130}' ==> r == "i\U{0307}"
    ensures c == '\U{0110}' ==> r == "\U{0111}"
    ensures !IsUpper(c) && c != '\U{212A}' && c != '\U{0130}' && c != '\U{0110}' ==> r == [c]
    ensures Every(NotUpper, r)
  {
    if IsUpper(c) then [(c as int + 32) as char]
    else if c == '\U{212A}' then "k"
    else if c == '\U{0130}' then "i\U{0307}"
    else if c == '\U{0110}' then "\U{0111}"
    else [c]
  }

  /**
   * `toLowerCase`, character by character: only U+0130 lowercases to two
   * characters, so a text without it keeps its length and each position
   * holds the lower case of the character there.
   */
  function Lower(s: string): (r: string)
    ensures Every(NotUpper, r)
    ensures '\U{0130}' !in s ==> |r| == |s| && forall i :: 0 <= i < |s| ==> r[i] == LowerChar(s[i])[0]
  {
    if s == [] then []
    else
      AppendEvery(NotUpper, LowerChar(s[0]), Lower(s[1..]));
      var r := LowerChar(s[0]) + Lower(s[1..]);
      assert '\U{0130}' !in s ==> forall i :: 1 <= i < |s| ==> s[1..][i - 1] == s[i];
      r
  }

  /** `.replace(/đ/g, 'd')`. */
  function ReplaceDStroke(s: string): (r: string)
    ensures |r| == |s|
    ensures forall i :: 0 <= i < |s| ==> r[i] == if s[i] == '\U{0111}' then 'd' else s[i]
  {
    if s == [] then []
    else [if s[0] == '\U{0111}' then 'd' else s[0]] + ReplaceDStroke(s[1..])
  }

  /** `.replace(/\s+/g, '-')`: every maximal run of spaces becomes one `-`, emitted at the run's last space. */
  function Hyphenate(s: string): (r: string)
    ensures |r| <= |s| && Every(NotSpace, r)
  {
    if s == [] then []
    else if !IsSpace(s[0]) then [s[0]] + Hyphenate(s[1..])
    else if |s| >= 2 && IsSpace(s[1]) then Hyphenate(s[1..])
    else "-" + Hyphenate(s[1..])
  }

  /**
   * `.replace(/\-\-+/g, '-')`: every run of two or more `-` becomes one. No
   * `--` is left, the first character and every character other than `-`
   * are kept in order (`CollapseRun` places the dashes).
   */
  function CollapseDashes(s: string): (r: string)
    ensures |r| <= |s| && NoDoubleDash(r)
    ensures s != [] ==> r != [] && r[0] == s[0]
    ensures Filter(NotDash, r) == Filter(NotDash, s)
  {
    if s == [] then []
    else if s[0] == '-' && |s| >= 2 && s[1] == '-' then CollapseDashes(s[1..])
    else
      var t := CollapseDashes(s[1..]);
      assert ([s[0]] + t)[1..] == t;
      [s[0]] + t
  }

  /** `.replace(/^-+/, '')`: `s` is a run of `-` followed by `r`, which does not start with `-`. */
  function TrimLeadingDashes(s: string): (r: string)
    ensures |r| <= |s| && r == s[|s| - |r|..] && AllDashes(s[..|s| - |r|])
    ensures r != [] ==> r[0] != '-'
  {
    if s != [] && s[0] == '-' then
      var r := TrimLeadingDashes(s[1..]);
      assert s[..|s| - |r|][1..] == s[1..][..|s| - 1 - |r|];
      r
    else
      s
  }

  predicate AllDashes(s: string)
  {
    s == [] || (s[0] == '-' && AllDashes(s[1..]))
  }

  /** `.replace(/-+$/, '')`: `s` is `r` followed by a run of `-`, and `r` does not end with `-`. */
  function TrimTrailingDashes(s: string): (r: string)
    ensures |r| <= |s| && r == s[..|r|] && AllDashes(s[|r|..])
    ensures r != [] ==> r[|r| - 1] != '-'
  {
    if AllDashes(s) then []
    else
      var t := TrimTrailingDashes(s[1..]);
      assert s[|t| + 1..] == s[1..][|t|..];
      [s[0]] + t
  }

  /** No two `-` in a row. */
  predicate NoDoubleDash(s: string)
  {
    |s| < 2 || (!(s[0] == '-' && s[1] == '-') && NoDoubleDash(s[1..]))
  }

  /** The shape the archive name promises: slug characters only, no `--`, no `-` at either end. */
  predicate IsSlug(s: string)
  {
    && Every(IsSlugChar, s)
    && NoDoubleDash(s)
    && (s != [] ==> s[0] != '-' && s[|s| - 1] != '-')
  }

  /** The text the slug is cut from: decomposed, unmarked, lowercased, `đ` spelled `d`. */
  function Prepared(decomposed: string): string
  {
    ReplaceDStroke(Lower(Filter(NotMark, decomposed)))
  }

  /** The rewriting chain applied to the NFD form of the title. */
  function Slugify(decomposed: string): (r: string)
    ensures IsSlug(r)
  {
    var s := Prepared(decomposed);
    ReplaceDStrokeNotUpper(Lower(Filter(NotMark, decomposed)));
    SlugifyShape(s);
    TrimTrailingDashes(TrimLeadingDashes(CollapseDashes(Filter(IsKept, Hyphenate(s)))))
  }

  /** The title's slug, or `content` when there is no selected title or nothing is left of it. */
  function TitleSlug(title: Option<string>, nfd: string -> string): (r: string)
    ensures IsSlug(r) && r != []
    ensures title.None? ==> r == "content"
    ensures title.Some? && Slugify(nfd(title.value)) != [] ==> r == Slugify(nfd(title.value))
  {
    var s := if title.Some? then Slugify(nfd(title.value)) else [];
    if s == [] then ContentIsSlug(); "content" else s
  }

  /**
   * The name of the downloaded archive: the prefix `ND_AllS_`, then a
   * non-empty slug, which is the title's when there is one that leaves
   * something, then `.zip`.
   */
  function ArchiveName(title: Option<string>, nfd: string -> string): (name: string)
    ensures |name| > 12 && name[..8] == "ND_AllS_" && name[|name| - 4..] == ".zip"
    ensures var slug := name[8..|name| - 4]; IsSlug(slug) && slug != [] && slug == TitleSlug(title, nfd)
    ensures title.None? ==> name[8..|name| - 4] == "content"
    ensures title.Some? && Slugify(nfd(title.value)) != [] ==> name[8..|name| - 4] == Slugify(nfd(title.value))
  {
    "ND_AllS_" + TitleSlug(title, nfd) + ".zip"
  }

  lemma ContentIsSlug()
    ensures IsSlug("content")
  {
    assert "content"[1..] == "ontent";
    assert "ontent"[1..] == "ntent";
    assert "ntent"[1..] == "tent";
    assert "tent"[1..] == "ent";
    assert "ent"[1..] == "nt";
    assert "nt"[1..] == "t";
  }

  // Shape: every step keeps what the previous ones established.

  lemma {:induction false} AppendEvery(p: char -> bool, a: string, b: string)
    requires Every(p, a) && Every(p, b)
    ensures Every(p, a + b)
    decreases |a|
  {
    if a != [] {
      assert (a + b)[0] == a[0] && (a + b)[1..] == a[1..] + b;
      AppendEvery(p, a[1..], b);
    } else {
      assert a + b == b;
    }
  }

  lemma {:induction false} ReplaceDStrokeNotUpper(s: string)
    requires Every(NotUpper, s)
    ensures Every(NotUpper, ReplaceDStroke(s))
    decreases |s|
  {
    if s != [] {
      ReplaceDStrokeNotUpper(s[1..]);
    }
  }

  lemma {:induction false} HyphenateNotUpper(s: string)
    requires Every(NotUpper, s)
    ensures Every(NotUpper, Hyphenate(s))
    decreases |s|
  {
    if s != [] {
      HyphenateNotUpper(s[1..]);
    }
  }

  lemma {:induction false} KeptSlugChars(s: string)
    requires Every(NotUpper, s)
    ensures Every(IsSlugChar, Filter(IsKept, s))
    decreases |s|
  {
    if s != [] {
      KeptSlugChars(s[1..]);
    }
  }

  /** After the collapse, no two `-` are adjacent, and only characters of the input appear. */
  lemma {:induction false} CollapseShape(s: string)
    requires Every(IsSlugChar, s)
    ensures Every(IsSlugChar, CollapseDashes(s)) && NoDoubleDash(CollapseDashes(s))
    ensures s != [] ==> CollapseDashes(s) != [] && CollapseDashes(s)[0] == s[0]
    decreases |s|
  {
    if s != [] {
      CollapseShape(s[1..]);
    }
  }

  lemma {:induction false} TrimLeadingShape(s: string)
    requires Every(IsSlugChar, s) && NoDoubleDash(s)
    ensures Every(IsSlugChar, TrimLeadingDashes(s)) && NoDoubleDash(TrimLeadingDashes(s))
    decreases |s|
  {
    if s != [] && s[0] == '-' {
      TrimLeadingShape(s[1..]);
    }
  }

  /** A non-empty run of `-` ends in `-`. */
  lemma {:induction false} AllDashesLast(s: string)
    requires AllDashes(s) && s != []
    ensures s[|s| - 1] == '-'
    decreases |s|
  {
    if |s| > 1 {
      AllDashesLast(s[1..]);
    }
  }

  lemma {:induction false} TrimTrailingShape(s: string)
    requires Every(IsSlugChar, s) && NoDoubleDash(s)
    ensures IsSlug(TrimTrailingDashes(s)) || (s != [] && s[0] == '-')
    ensures var r := TrimTrailingDashes(s);
            Every(IsSlugChar, r) && NoDoubleDash(r) && (r != [] ==> r[0] == s[0] && r[|r| - 1] != '-')
    decreases |s|
  {
    if !AllDashes(s) {
      var r := TrimTrailingDashes(s);
      var t := TrimTrailingDashes(s[1..]);
      TrimTrailingShape(s[1..]);
      assert r == [s[0]] + t;
      if t == [] {
        assert AllDashes(s[1..]);
        assert s[0] != '-';
      } else {
        assert r[1..] == t;
        assert r[|r| - 1] == t[|t| - 1];
        assert !(s[0] == '-' && s[1] == '-');
      }
    }
  }

  lemma SlugifyShape(s: string)
    requires Every(NotUpper, s)
    ensures IsSlug(TrimTrailingDashes(TrimLeadingDashes(CollapseDashes(Filter(IsKept, Hyphenate(s))))))
  {
    HyphenateNotUpper(s);
    var k := Filter(IsKept, Hyphenate(s));
    KeptSlugChars(Hyphenate(s));
    CollapseShape(k);
    var c := CollapseDashes(k);
    TrimLeadingShape(c);
    TrimTrailingShape(TrimLeadingDashes(c));
  }

  /** A space is neither a word character nor `-`. */
  lemma SpaceIsNotKept(c: char)
    ensures IsSpace(c) ==> !IsKept(c) && c != '\U{0111}'
  {
  }

  lemma FilterCons(p: char -> bool, c: char, t: string)
    ensures Filter(p, [c] + t) == if p(c) then [c] + Filter(p, t) else Filter(p, t)
  {
    assert ([c] + t)[0] == c && ([c] + t)[1..] == t;
  }

  // Content: the slug keeps every word character of the prepared title, in order.

  lemma {:induction false} HyphenateWords(s: string)
    ensures Filter(IsWordChar, Hyphenate(s)) == Filter(IsWordChar, s)
    decreases |s|
  {
    if s != [] {
      HyphenateWords(s[1..]);
      SpaceIsNotKept(s[0]);
      if !IsSpace(s[0]) {
        FilterCons(IsWordChar, s[0], Hyphenate(s[1..]));
      } else if !(|s| >= 2 && IsSpace(s[1])) {
        FilterCons(IsWordChar, '-', Hyphenate(s[1..]));
      }
    }
  }

  lemma {:induction false} KeptWords(s: string)
    ensures Filter(IsWordChar, Filter(IsKept, s)) == Filter(IsWordChar, s)
    decreases |s|
  {
    if s != [] {
      KeptWords(s[1..]);
      if IsKept(s[0]) {
        assert ([s[0]] + Filter(IsKept, s[1..]))[1..] == Filter(IsKept, s[1..]);
      }
    }
  }

  lemma {:induction false} CollapseWords(s: string)
    ensures Filter(IsWordChar, CollapseDashes(s)) == Filter(IsWordChar, s)
    decreases |s|
  {
    if s != [] {
      CollapseWords(s[1..]);
      if !(s[0] == '-' && |s| >= 2 && s[1] == '-') {
        assert ([s[0]] + CollapseDashes(s[1..]))[1..] == CollapseDashes(s[1..]);
      }
    }
  }

  lemma {:induction false} TrimLeadingWords(s: string)
    ensures Filter(IsWordChar, TrimLeadingDashes(s)) == Filter(IsWordChar, s)
    decreases |s|
  {
    if s != [] && s[0] == '-' {
      TrimLeadingWords(s[1..]);
    }
  }

  lemma {:induction false} DashesHaveNoWords(s: string)
    requires AllDashes(s)
    ensures Filter(IsWordChar, s) == []
    decreases |s|
  {
    if s != [] {
      DashesHaveNoWords(s[1..]);
    }
  }

  lemma {:induction false} TrimTrailingWords(s: string)
    ensures Filter(IsWordChar, TrimTrailingDashes(s)) == Filter(IsWordChar, s)
    decreases |s|
  {
    if AllDashes(s) {
      DashesHaveNoWords(s);
    } else {
      TrimTrailingWords(s[1..]);
      assert ([s[0]] + TrimTrailingDashes(s[1..]))[1..] == TrimTrailingDashes(s[1..]);
    }
  }

  /** No word character is lost or invented: the slug's letters, digits and `_` are those of the prepared title, in order. */
  lemma SlugWords(decomposed: string)
    ensures Filter(IsWordChar, Slugify(decomposed)) == Filter(IsWordChar, Prepared(decomposed))
  {
    var s := Prepared(decomposed);
    var h := Hyphenate(s);
    var k := Filter(IsKept, h);
    var c := CollapseDashes(k);
    var l := TrimLeadingDashes(c);
    HyphenateWords(s);
    KeptWords(h);
    CollapseWords(k);
    TrimLeadingWords(c);
    TrimTrailingWords(l);
  }

  /** A slug with no word character is all dashes, so the trim leaves nothing of it. */
  lemma {:induction false} SlugWithoutWords(s: string)
    requires Every(IsSlugChar, s) && Filter(IsWordChar, s) == []
    ensures AllDashes(s)
    decreases |s|
  {
    if s != [] {
      assert !IsWordChar(s[0]);
      SlugWithoutWords(s[1..]);
    }
  }

  /** The slug is empty, and the name falls back to `content`, exactly when the prepared title has no word character. */
  lemma SlugEmpty(decomposed: string)
    ensures Slugify(decomposed) == [] <==> Filter(IsWordChar, Prepared(decomposed)) == []
  {
    var r := Slugify(decomposed);
    SlugWords(decomposed);
    if r != [] && Filter(IsWordChar, r) == [] {
      SlugWithoutWords(r);
      assert false;
    }
  }

  // Placement: each run of spaces becomes one `-`, and each run of `-` one `-`.

  /** `toLowerCase` of a concatenation is the concatenation of the lower cases. */
  lemma {:induction false} LowerConcat(a: string, b: string)
    ensures Lower(a + b) == Lower(a) + Lower(b)
    decreases |a|
  {
    if a == [] {
      assert a + b == b;
    } else {
      assert (a + b)[0] == a[0] && (a + b)[1..] == a[1..] + b;
      LowerConcat(a[1..], b);
    }
  }

  /** A run of spaces followed by a non-space becomes a single `-`. */
  lemma {:induction false} HyphenateSpaces(sp: string, t: string)
    requires sp != [] && Every(IsSpace, sp)
    requires t == [] || !IsSpace(t[0])
    ensures Hyphenate(sp + t) == "-" + Hyphenate(t)
    decreases |sp|
  {
    assert (sp + t)[0] == sp[0] && (sp + t)[1..] == sp[1..] + t;
    if |sp| >= 2 {
      assert (sp + t)[1] == sp[1];
      HyphenateSpaces(sp[1..], t);
    } else {
      assert sp[1..] + t == t;
    }
  }

  /** A word, a run of spaces and the rest: the word is kept and the run becomes one `-`. */
  lemma {:induction false} HyphenateRun(w: string, sp: string, t: string)
    requires Every(NotSpace, w) && sp != [] && Every(IsSpace, sp)
    requires t == [] || !IsSpace(t[0])
    ensures Hyphenate(w + sp + t) == w + "-" + Hyphenate(t)
    decreases |w|
  {
    if w == [] {
      assert w + sp + t == sp + t;
      HyphenateSpaces(sp, t);
    } else {
      var x := w[1..] + sp + t;
      assert w + sp + t == [w[0]] + x;
      assert ([w[0]] + x)[1..] == x;
      HyphenateRun(w[1..], sp, t);
    }
  }

  /** A run of `-` followed by something else becomes a single `-`. */
  lemma {:induction false} CollapseDashRun(d: string, t: string)
    requires d != [] && AllDashes(d)
    requires t == [] || t[0] != '-'
    ensures CollapseDashes(d + t) == "-" + CollapseDashes(t)
    decreases |d|
  {
    assert (d + t)[0] == d[0] && (d + t)[1..] == d[1..] + t;
    if |d| >= 2 {
      assert (d + t)[1] == d[1];
      CollapseDashRun(d[1..], t);
    } else {
      assert d[1..] + t == t;
    }
  }

  /** A dash-free word, a run of `-` and the rest: the word is kept and the run becomes one `-`. */
  lemma {:induction false} CollapseRun(w: string, d: string, t: string)
    requires Every(NotDash, w) && d != [] && AllDashes(d)
    requires t == [] || t[0] != '-'
    ensures CollapseDashes(w + d + t) == w + "-" + CollapseDashes(t)
    decreases |w|
  {
    if w == [] {
      assert w + d + t == d + t;
      CollapseDashRun(d, t);
    } else {
      var x := w[1..] + d + t;
      assert w + d + t == [w[0]] + x;
      assert ([w[0]] + x)[1..] == x;
      CollapseRun(w[1..], d, t);
    }
  }

  /** Lower-case ASCII letters, digits and `_`: the word characters a slug keeps as they are. */
  predicate IsLowerWordChar(c: char)
  {
    'a' <= c <= 'z' || '0' <= c <= '9' || c == '_'
  }

  /** A word character or a plain space. */
  predicate IsPlainChar(c: char)
  {
    IsLowerWordChar(c) || c == ' '
  }

  /** Text of lower-case words and plain spaces is already prepared: no mark, capital or `đ`. */
  lemma PlainPrepared(s: string)
    requires Every(IsPlainChar, s)
    ensures Prepared(s) == s
  {
    PlainUnmarked(s);
    PlainLower(s);
    PlainNoDStroke(s);
  }

  lemma {:induction false} PlainUnmarked(s: string)
    requires Every(IsPlainChar, s)
    ensures Filter(NotMark, s) == s
    decreases |s|
  {
    if s != [] {
      PlainUnmarked(s[1..]);
    }
  }

  lemma {:induction false} PlainLower(s: string)
    requires Every(IsPlainChar, s)
    ensures Lower(s) == s
    decreases |s|
  {
    if s != [] {
      PlainLower(s[1..]);
      assert LowerChar(s[0]) == [s[0]];
    }
  }

  lemma {:induction false} PlainNoDStroke(s: string)
    requires Every(IsPlainChar, s)
    ensures ReplaceDStroke(s) == s
    decreases |s|
  {
    if s != [] {
      PlainNoDStroke(s[1..]);
    }
  }

  lemma {:induction false} PlainJoin(ws: seq<string>)
    requires forall k :: 0 <= k < |ws| ==> Every(IsLowerWordChar, ws[k])
    ensures Every(IsPlainChar, Join(ws, " "))
    decreases |ws|
  {
    if |ws| >= 2 {
      PlainJoin(ws[1..]);
      LowerWordsPlain(ws[0]);
      AppendEvery(IsPlainChar, ws[0], " ");
      AppendEvery(IsPlainChar, ws[0] + " ", Join(ws[1..], " "));
    } else if |ws| == 1 {
      LowerWordsPlain(ws[0]);
    }
  }

  lemma {:induction false} LowerWordsPlain(w: string)
    requires Every(IsLowerWordChar, w)
    ensures Every(IsPlainChar, w) && Every(NotSpace, w) && Every(IsSlugChar, w)
    decreases |w|
  {
    if w != [] {
      LowerWordsPlain(w[1..]);
    }
  }

  /** Words separated by single spaces come out separated by single dashes. */
  lemma {:induction false} HyphenateJoin(ws: seq<string>)
    requires forall k :: 0 <= k < |ws| ==> ws[k] != [] && Every(IsLowerWordChar, ws[k])
    ensures Hyphenate(Join(ws, " ")) == Join(ws, "-")
    decreases |ws|
  {
    if |ws| == 1 {
      LowerWordsPlain(ws[0]);
      HyphenateOfSlugChars(ws[0]);
    } else if |ws| >= 2 {
      HyphenateJoin(ws[1..]);
      LowerWordsPlain(ws[0]);
      JoinHead(ws[1..]);
      LowerWordsPlain(ws[1][..1]);
      assert ws[1][..1] == [ws[1][0]];
      HyphenateRun(ws[0], " ", Join(ws[1..], " "));
    }
  }

  /** Prefixing a lower-case word character keeps a text a slug. */
  lemma ConsSlug(c: char, t: string)
    requires IsLowerWordChar(c) && IsSlug(t)
    ensures IsSlug([c] + t)
  {
    assert ([c] + t)[1..] == t;
  }

  /** A non-empty lower-case word, `-`, and a non-empty slug make a slug. */
  lemma {:induction false} SlugOfDash(w: string, t: string)
    requires w != [] && Every(IsLowerWordChar, w) && t != [] && IsSlug(t)
    ensures IsSlug(w + "-" + t)
    decreases |w|
  {
    if |w| == 1 {
      assert w + "-" + t == [w[0]] + ("-" + t);
      assert ("-" + t)[1..] == t;
      assert Every(IsSlugChar, "-" + t) && NoDoubleDash("-" + t);
      assert ([w[0]] + ("-" + t))[1..] == "-" + t;
    } else {
      SlugOfDash(w[1..], t);
      assert w + "-" + t == [w[0]] + (w[1..] + "-" + t);
      ConsSlug(w[0], w[1..] + "-" + t);
    }
  }

  lemma {:induction false} SlugOfWord(w: string)
    requires Every(IsLowerWordChar, w)
    ensures IsSlug(w)
    decreases |w|
  {
    if w != [] {
      SlugOfWord(w[1..]);
      assert w == [w[0]] + w[1..];
      ConsSlug(w[0], w[1..]);
    }
  }

  lemma {:induction false} SlugOfJoin(ws: seq<string>)
    requires |ws| >= 1 && forall k :: 0 <= k < |ws| ==> ws[k] != [] && Every(IsLowerWordChar, ws[k])
    ensures IsSlug(Join(ws, "-")) && Join(ws, "-") != []
    decreases |ws|
  {
    if |ws| == 1 {
      SlugOfWord(ws[0]);
    } else {
      SlugOfJoin(ws[1..]);
      SlugOfDash(ws[0], Join(ws[1..], "-"));
    }
  }

  /**
   * A title of lower-case words separated by single spaces slugs to the same
   * words separated by single dashes: the dashes stand exactly where the
   * spaces stood.
   */
  lemma SlugOfWords(ws: seq<string>)
    requires |ws| >= 1 && forall k :: 0 <= k < |ws| ==> ws[k] != [] && Every(IsLowerWordChar, ws[k])
    ensures Slugify(Join(ws, " ")) == Join(ws, "-")
  {
    PlainJoin(ws);
    PlainPrepared(Join(ws, " "));
    HyphenateJoin(ws);
    SlugOfJoin(ws);
    ChainOfSlug(Join(ws, "-"));
  }

  /** The steps after hyphenation leave a slug as it is. */
  lemma ChainOfSlug(d: string)
    requires IsSlug(d)
    ensures TrimTrailingDashes(TrimLeadingDashes(CollapseDashes(Filter(IsKept, d)))) == d
  {
    SlugCharsUnmarked(d);
    FilterEvery(IsKept, d);
    CollapseOfSingleDashes(d);
    TrimTrailingOfDashEnd(d);
  }

  // Idempotence: a slug passes through the chain unchanged.

  lemma {:induction false} FilterEvery(p: char -> bool, s: string)
    requires Every(p, s)
    ensures Filter(p, s) == s
    decreases |s|
  {
    if s != [] {
      FilterEvery(p, s[1..]);
    }
  }

  lemma {:induction false} SlugCharsUnmarked(s: string)
    requires Every(IsSlugChar, s)
    ensures Every(NotMark, s) && Every(IsKept, s)
    decreases |s|
  {
    if s != [] {
      SlugCharsUnmarked(s[1..]);
    }
  }

  lemma {:induction false} LowerOfSlugChars(s: string)
    requires Every(IsSlugChar, s)
    ensures Lower(s) == s
    decreases |s|
  {
    if s != [] {
      LowerOfSlugChars(s[1..]);
      assert LowerChar(s[0]) == [s[0]];
    }
  }

  lemma {:induction false} ReplaceDStrokeOfSlugChars(s: string)
    requires Every(IsSlugChar, s)
    ensures ReplaceDStroke(s) == s
    decreases |s|
  {
    if s != [] {
      ReplaceDStrokeOfSlugChars(s[1..]);
    }
  }

  lemma {:induction false} HyphenateOfSlugChars(s: string)
    requires Every(IsSlugChar, s)
    ensures Hyphenate(s) == s
    decreases |s|
  {
    if s != [] {
      assert !IsSpace(s[0]);
      HyphenateOfSlugChars(s[1..]);
    }
  }

  lemma {:induction false} CollapseOfSingleDashes(s: string)
    requires NoDoubleDash(s)
    ensures CollapseDashes(s) == s
    decreases |s|
  {
    if s != [] {
      CollapseOfSingleDashes(s[1..]);
    }
  }

  lemma {:induction false} TrimTrailingOfDashEnd(s: string)
    requires s != [] ==> s[|s| - 1] != '-'
    ensures TrimTrailingDashes(s) == s
    decreases |s|
  {
    if s != [] {
      if AllDashes(s) {
        AllDashesLast(s);
      }
      TrimTrailingOfDashEnd(s[1..]);
    }
  }

  /** Slugifying a slug gives it back: every rewrite of the chain is already done. */
  lemma SlugIdempotent(decomposed: string)
    ensures Slugify(Slugify(decomposed)) == Slugify(decomposed)
  {
    var s := Slugify(decomposed);
    SlugCharsUnmarked(s);
    FilterEvery(NotMark, s);
    LowerOfSlugChars(s);
    ReplaceDStrokeOfSlugChars(s);
    assert Prepared(s) == s;
    HyphenateOfSlugChars(s);
    FilterEvery(IsKept, s);
    CollapseOfSingleDashes(s);
    TrimTrailingOfDashEnd(s);
  }
}

=== FILE: text.dfy ===
/**
 * The JavaScript string operations the application relies on: the `\s`
 * character class, `split(/\s+/).filter(Boolean)` (the word count that
 * decides whether the input counts as original content), `join`,
 * `substring(0, n)` and `parseInt(s, 10)`.
 */
module Text {

  /** The `\s` class of JavaScript regular expressions: the WhiteSpace and LineTerminator code points. */
  const SPACES: set<char> := {
    '\t', '\n', '\U{000B}', '\U{000C}', '\r', ' ', '\U{00A0}', '\U{1680}',
    '\U{2000}', '\U{2001}', '\U{2002}', '\U{2003}', '\U{2004}', '\U{2005}',
    '\U{2006}', '\U{2007}', '\U{2008}', '\U{2009}', '\U{200A}',
    '\U{2028}', '\U{2029}', '\U{202F}', '\U{205F}', '\U{3000}', '\U{FEFF}'
  }

  predicate IsSpace(ch: char)
  {
    ch in SPACES
  }

  predicate SpaceFree(s: string)
  {
    s == [] || (!IsSpace(s[0]) && SpaceFree(s[1..]))
  }

  /**
   * `s.split(/\s+/)`: the pieces between maximal runs of spaces, with an
   * empty first piece when `s` starts with a space and an empty last piece
   * when it ends with one. Read one character at a time: a non-space joins
   * the first piece, a space that starts a run opens a new piece, and a space
   * followed by another space belongs to the run that follows.
   */
  function Pieces(s: string): (ps: seq<string>)
    ensures |ps| >= 1
    ensures forall k :: 0 <= k < |ps| ==> SpaceFree(ps[k])
  {
    if s == [] then [[]]
    else if !IsSpace(s[0]) then
      var ps := Pieces(s[1..]);
      [[s[0]] + ps[0]] + ps[1..]
    else if |s| >= 2 && IsSpace(s[1]) then Pieces(s[1..])
    else [[]] + Pieces(s[1..])
  }

  /** `.filter(Boolean)` on strings: the non-empty ones, in order. */
  function NonEmpty(ps: seq<string>): (r: seq<string>)
    ensures |r| <= |ps|
    ensures forall k :: 0 <= k < |r| ==> r[k] != [] && r[k] in ps
  {
    if ps == [] then []
    else if ps[0] == [] then NonEmpty(ps[1..])
    else [ps[0]] + NonEmpty(ps[1..])
  }

  /** `s.split(/\s+/).filter(Boolean)`: the words of `s`. */
  function Tokens(s: string): (ts: seq<string>)
    ensures forall k :: 0 <= k < |ts| ==> ts[k] != [] && SpaceFree(ts[k])
  {
    NonEmpty(Pieces(s))
  }

  function WordCount(s: string): nat
  {
    |Tokens(s)|
  }

  /** `s` with its spaces removed. */
  function NonSpace(s: string): string
  {
    if s == [] then []
    else if IsSpace(s[0]) then NonSpace(s[1..])
    else [s[0]] + NonSpace(s[1..])
  }

  function Concat(ws: seq<string>): string
  {
    if ws == [] then [] else ws[0] + Concat(ws[1..])
  }

  /** `ws.join(sep)`. */
  function Join(ws: seq<string>, sep: string): string
  {
    if ws == [] then []
    else if |ws| == 1 then ws[0]
    else ws[0] + sep + Join(ws[1..], sep)
  }

  lemma ConcatCons(w: string, ws: seq<string>)
    ensures Concat([w] + ws) == w + Concat(ws)
  {
    assert ([w] + ws)[1..] == ws;
  }

  lemma {:induction false} ConcatNonEmpty(ps: seq<string>)
    ensures Concat(NonEmpty(ps)) == Concat(ps)
    decreases |ps|
  {
    if ps != [] {
      ConcatNonEmpty(ps[1..]);
      if ps[0] != [] {
        ConcatCons(ps[0], NonEmpty(ps[1..]));
      }
    }
  }

  /** The pieces of the split hold exactly the non-space characters of the text, in order. */
  lemma {:induction false} PiecesCoverText(s: string)
    ensures Concat(Pieces(s)) == NonSpace(s)
    decreases |s|
  {
    if s != [] {
      var ps := Pieces(s[1..]);
      PiecesCoverText(s[1..]);
      if !IsSpace(s[0]) {
        assert ps == [ps[0]] + ps[1..];
        ConcatCons(ps[0], ps[1..]);
        ConcatCons([s[0]] + ps[0], ps[1..]);
      } else if !(|s| >= 2 && IsSpace(s[1])) {
        ConcatCons([], ps);
      }
    }
  }

  /** The words of a text hold exactly its non-space characters, in order: nothing is lost or invented. */
  lemma TokensCoverText(s: string)
    ensures Concat(Tokens(s)) == NonSpace(s)
  {
    ConcatNonEmpty(Pieces(s));
    PiecesCoverText(s);
  }

  /** A word without spaces splits into itself. */
  lemma {:induction false} PiecesOfWord(w: string)
    requires SpaceFree(w)
    ensures Pieces(w) == [w]
    decreases |w|
  {
    if w != [] {
      PiecesOfWord(w[1..]);
      assert [w[0]] + w[1..] == w;
    }
  }

  /** A word, one space, then text starting with a word: the split yields the word, then the split of the text. */
  lemma {:induction false} PiecesOfWordSpace(w: string, t: string)
    requires SpaceFree(w) && t != [] && !IsSpace(t[0])
    ensures Pieces(w + " " + t) == [w] + Pieces(t)
    decreases |w|
  {
    var s := w + " " + t;
    if w == [] {
      assert s == " " + t && s[1..] == t;
    } else {
      assert s[1..] == w[1..] + " " + t;
      PiecesOfWordSpace(w[1..], t);
      assert [w[0]] + w[1..] == w;
    }
  }

  /** The words of single-space-joined words are those words: `split` + `filter` undoes `join(" ")`. */
  lemma {:induction false} TokensOfJoin(ws: seq<string>)
    requires forall k :: 0 <= k < |ws| ==> ws[k] != [] && SpaceFree(ws[k])
    ensures Tokens(Join(ws, " ")) == ws
    decreases |ws|
  {
    if ws == [] {
      assert Pieces([]) == [[]];
    } else if |ws| == 1 {
      PiecesOfWord(ws[0]);
      assert NonEmpty([ws[0]])[1..] == [];
    } else {
      var t := Join(ws[1..], " ");
      TokensOfJoin(ws[1..]);
      assert t != [] && t[0] == ws[1][0] by {
        JoinHead(ws[1..]);
      }
      assert !IsSpace(ws[1][0]);
      PiecesOfWordSpace(ws[0], t);
      var ps := Pieces(Join(ws, " "));
      assert ps == [ws[0]] + Pieces(t);
      assert ps[1..] == Pieces(t);
    }
  }

  lemma {:induction false} JoinHead(ws: seq<string>)
    requires |ws| >= 1 && ws[0] != []
    ensures Join(ws, " ") != [] && Join(ws, " ")[0] == ws[0][0]
  {
  }

  /** `s.split(sep)` for a non-empty separator: the pieces between the occurrences of `sep`, scanning left to right. */
  function Split(s: string, sep: string): (ps: seq<string>)
    requires sep != []
    ensures |ps| >= 1
    decreases |s|
  {
    if s == [] then [[]]
    else if |sep| <= |s| && s[..|sep|] == sep then [[]] + Split(s[|sep|..], sep)
    else
      var ps := Split(s[1..], sep);
      [[s[0]] + ps[0]] + ps[1..]
  }

  /** `c` does not occur in `s`. */
  predicate Free(s: string, c: char)
  {
    s == [] || (s[0] != c && Free(s[1..], c))
  }

  /** A character that does not occur in `s` leaves it `Free`. */
  lemma {:induction false} FreeOfAbsent(s: string, c: char)
    requires c !in s
    ensures Free(s, c)
    decreases |s|
  {
    if s != [] {
      FreeOfAbsent(s[1..], c);
    }
  }

  /** A piece free of the separator's first character is split off whole. */
  lemma {:induction false} SplitAfterPiece(w: string, sep: string, rest: string)
    requires sep != [] && Free(w, sep[0])
    ensures Split(w + sep + rest, sep) == [w] + Split(rest, sep)
    decreases |w|
  {
    var s := w + sep + rest;
    if w == [] {
      assert s == sep + rest && s[..|sep|] == sep && s[|sep|..] == rest;
    } else {
      assert s[0] == w[0] && s[0] != sep[0];
      assert s[1..] == w[1..] + sep + rest;
      SplitAfterPiece(w[1..], sep, rest);
      assert [w[0]] + w[1..] == w;
    }
  }

  /** A text free of the separator's first character is a single piece. */
  lemma {:induction false} SplitOfPiece(w: string, sep: string)
    requires sep != [] && Free(w, sep[0])
    ensures Split(w, sep) == [w]
    decreases |w|
  {
    if w != [] {
      assert w[0] != sep[0];
      SplitOfPiece(w[1..], sep);
      assert [w[0]] + w[1..] == w;
    }
  }

  /** `split` undoes `join` when no piece holds the separator's first character. */
  lemma {:induction false} SplitJoin(ws: seq<string>, sep: string)
    requires sep != [] && |ws| >= 1
    requires forall k :: 0 <= k < |ws| ==> Free(ws[k], sep[0])
    ensures Split(Join(ws, sep), sep) == ws
    decreases |ws|
  {
    if |ws| == 1 {
      SplitOfPiece(ws[0], sep);
    } else {
      SplitJoin(ws[1..], sep);
      SplitAfterPiece(ws[0], sep, Join(ws[1..], sep));
      assert [ws[0]] + ws[1..] == ws;
    }
  }

  /** `s` without its leading spaces. */
  function TrimStart(s: string): (t: string)
    ensures |t| <= |s|
    ensures t != [] ==> !IsSpace(t[0])
  {
    if s != [] && IsSpace(s[0]) then TrimStart(s[1..]) else s
  }

  /** `s.substring(0, n)` for `n >= 0`: the first `n` characters, or all of `s` when it is shorter. */
  function Prefix(s: string, n: nat): (p: string)
    ensures |p| == if n < |s| then n else |s|
    ensures p <= s
  {
    if n < |s| then s[..n] else s
  }

  /** A text at most `n` long is its own prefix; a longer one is cut to exactly `n`, and cutting twice changes nothing. */
  lemma PrefixFacts(s: string, n: nat)
    ensures Prefix(s, n) == s <==> |s| <= n
    ensures Prefix(Prefix(s, n), n) == Prefix(s, n)
  {
  }

  /** A JavaScript number as `parseInt` and the `<select>` handlers produce it: an integer or NaN. */
  datatype Num = Int(value: int) | NaN

  predicate IsDigit(ch: char)
  {
    '0' <= ch <= '9'
  }

  /** The longest prefix of decimal digits. */
  function LeadingDigits(s: string): (d: string)
    ensures |d| <= |s|
    ensures forall i :: 0 <= i < |d| ==> IsDigit(d[i])
    ensures |d| < |s| ==> !IsDigit(s[|d|])
  {
    if s == [] || !IsDigit(s[0]) then []
    else [s[0]] + LeadingDigits(s[1..])
  }

  /** The value of a string of decimal digits, most significant first. */
  function DecimalValue(d: string): (v: nat)
    requires forall i :: 0 <= i < |d| ==> IsDigit(d[i])
  {
    if d == [] then 0
    else
      assert IsDigit(d[|d| - 1]);
      10 * DecimalValue(d[..|d| - 1]) + (d[|d| - 1] as int - '0' as int)
  }

  /**
   * `parseInt(s, 10)`: leading spaces are skipped, one sign is read, then the
   * longest run of digits; with no digit the result is NaN.
   */
  function ParseInt(s: string): (r: Num)
  {
    var t := TrimStart(s);
    var negative := t != [] && t[0] == '-';
    var body := if t != [] && (t[0] == '-' || t[0] == '+') then t[1..] else t;
    var d := LeadingDigits(body);
    if d == [] then NaN
    else if negative then Int(-(DecimalValue(d) as int))
    else Int(DecimalValue(d))
  }

  /** The decimal rendering of a natural number, as `String(n)` and JSX attribute values give it. */
  function Show(n: nat): (s: string)
    ensures s != [] && forall i :: 0 <= i < |s| ==> IsDigit(s[i])
  {
    var last := [(0x30 + n % 10) as char];
    if n < 10 then last else Show(n / 10) + last
  }

  lemma {:induction false} DecimalValueShow(n: nat)
    ensures DecimalValue(Show(n)) == n
  {
    var s := Show(n);
    if n >= 10 {
      DecimalValueShow(n / 10);
      assert s[..|s| - 1] == Show(n / 10);
    }
  }

  /** `parseInt(String(n), 10) == n`: a `<select>` handler reads back the number its option shows. */
  lemma ParseIntShow(n: nat)
    ensures ParseInt(Show(n)) == Int(n)
  {
    ParseIntDigits(Show(n));
    DecimalValueShow(n);
  }

  /** A non-empty run of digits parses as its decimal value. */
  lemma ParseIntDigits(s: string)
    requires s != [] && forall i :: 0 <= i < |s| ==> IsDigit(s[i])
    ensures ParseInt(s) == Int(DecimalValue(s))
  {
    assert IsDigit(s[0]) && !IsSpace(s[0]);
    assert TrimStart(s) == s;
    assert s[0] != '-' && s[0] != '+';
    LeadingDigitsAll(s);
  }

  lemma {:induction false} LeadingDigitsAll(s: string)
    requires forall i :: 0 <= i < |s| ==> IsDigit(s[i])
    ensures LeadingDigits(s) == s
    decreases |s|
  {
    if s != [] {
      LeadingDigitsAll(s[1..]);
    }
  }
}

=== FILE: wav.dfy ===
/**
 * `audioBufferToWav`: a canonical 16-bit PCM file in the RIFF WAVE format.
 * A 44-byte header (`RIFF` size, `WAVE`, a 16-byte `fmt ` chunk with format
 * tag 1, `data` size) is followed by the samples frame by frame, each frame
 * holding one little-endian int16 per channel in channel order.
 */
module Wav {
  import opened Wrappers
  import opened Bytes
  import opened Audio

  const HEADER_SIZE := 44

  /** `Math.max(-1, Math.min(1, x))`. */
  function Clamp(x: real): (s: real)
    ensures -1.0 <= s <= 1.0
    ensures -1.0 <= x <= 1.0 ==> s == x
    ensures x > 1.0 ==> s == 1.0
    ensures x < -1.0 ==> s == -1.0
  {
    if x < -1.0 then -1.0 else if x > 1.0 then 1.0 else x
  }

  /** `y | 0` for a `y` inside the int32 range: truncation toward zero. */
  function Trunc(y: real): (n: int)
    ensures y >= 0.0 ==> n >= 0 && n as real <= y < n as real + 1.0
    ensures y < 0.0 ==> n <= 0 && n as real - 1.0 < y <= n as real
  {
    if y >= 0.0 then y.Floor else -((-y).Floor)
  }

  /**
   * The quantiser of the encoder loop. The test `0.5 + sample < 0` selects the
   * scale 32768 for samples below -0.5 and 32767 otherwise, and `| 0`
   * truncates toward zero.
   */
  function Quantise(x: real): (q: int)
    ensures -0x8000 <= q <= 0x7FFF
  {
    var s := Clamp(x);
    Trunc(if 0.5 + s < 0.0 then s * 32768.0 else s * 32767.0)
  }

  /** Full scale and silence: 1.0 gives 32767, -1.0 gives -32768, 0.0 gives 0; out-of-range input saturates. */
  lemma QuantiseFullScale(x: real)
    ensures Quantise(1.0) == 0x7FFF && Quantise(-1.0) == -0x8000 && Quantise(0.0) == 0
    ensures x >= 1.0 ==> Quantise(x) == 0x7FFF
    ensures x <= -1.0 ==> Quantise(x) == -0x8000
  {
  }

  /** A larger sample never quantises to a smaller integer, across the -0.5 switch of scale too. */
  lemma QuantiseMonotone(x: real, y: real)
    requires x <= y
    ensures Quantise(x) <= Quantise(y)
  {
    var s, t := Clamp(x), Clamp(y);
    assert s <= t;
    if s < -0.5 && t >= -0.5 {
      assert Quantise(x) <= -16384;
      assert Quantise(y) >= -16383;
    }
  }

  /** The quantised value, read back at the decoder's scale, is less than 2/32768 away from the clamped sample. */
  lemma QuantiseError(x: real)
    ensures -2.0 < Quantise(x) as real - 32768.0 * Clamp(x) < 2.0
  {
  }

  /** The two bytes written for one sample by `view.setInt16(pos, sample, true)`. */
  function SampleBytes(x: real): (r: seq<byte>)
    ensures |r| == 2 && I16At(r, 0) == Quantise(x)
  {
    I16RoundTrip(Quantise(x));
    LE16(Quantise(x))
  }

  /** Channels `0 .. c-1` of frame `i`, in channel order (the inner `for` loop). */
  function FrameBytes(chs: seq<seq<real>>, i: nat, c: nat): (r: seq<byte>)
    requires c <= |chs|
    requires forall k :: 0 <= k < |chs| ==> i < |chs[k]|
    ensures |r| == 2 * c
    ensures forall k :: 0 <= k < c ==> I16At(r, 2 * k) == Quantise(chs[k][i])
  {
    if c == 0 then []
    else
      var prefix := FrameBytes(chs, i, c - 1);
      assert forall k :: 0 <= k < c - 1 ==> I16At(prefix + SampleBytes(chs[c - 1][i]), 2 * k) == I16At(prefix, 2 * k);
      prefix + SampleBytes(chs[c - 1][i])
  }

  /** Frames `0 .. n-1` in order (the outer `while (pos < length)` loop). */
  function DataBytes(chs: seq<seq<real>>, n: nat): (r: seq<byte>)
    requires forall k :: 0 <= k < |chs| ==> n <= |chs[k]|
    ensures |r| == n * |chs| * 2
  {
    if n == 0 then []
    else
      assert n * |chs| * 2 == (n - 1) * |chs| * 2 + 2 * |chs|;
      DataBytes(chs, n - 1) + FrameBytes(chs, n - 1, |chs|)
  }

  /** `RIFF`, the RIFF size (file length - 8) and `WAVE`: bytes 0..11. */
  function RiffHeader(length: int): (h: seq<byte>)
    ensures |h| == 12
  {
    LE32(0x46464952) + LE32(length - 8) + LE32(0x45564157)
  }

  /** The `fmt ` chunk: bytes 12..35. */
  function FmtChunk(numOfChan: nat, sampleRate: nat): (h: seq<byte>)
    ensures |h| == 24
  {
    LE32(0x20746d66)                       // "fmt " chunk
    + LE32(16)                             // chunk length
    + LE16(1)                              // PCM (uncompressed)
    + LE16(numOfChan)
    + LE32(sampleRate)
    + LE32(sampleRate * 2 * numOfChan)     // average bytes per second
    + LE16(numOfChan * 2)                  // block align
    + LE16(16)                             // bits per sample
  }

  /** `data` and the data size, written when `pos` is 40: bytes 36..43. */
  function DataChunkHeader(length: int): (h: seq<byte>)
    ensures |h| == 8
  {
    LE32(0x61746164) + LE32(length - 40 - 4)
  }

  /** The header, given the file `length` the encoder computes first. */
  function Header(numOfChan: nat, sampleRate: nat, length: int): (h: seq<byte>)
    ensures |h| == HEADER_SIZE
  {
    RiffHeader(length) + FmtChunk(numOfChan, sampleRate) + DataChunkHeader(length)
  }

  /** `buffer.length * numOfChan * 2 + 44`: the size of the file. */
  function FileLength(b: PcmBuffer): nat
  {
    b.length * |b.channels| * 2 + HEADER_SIZE
  }

  /** `audioBufferToWav`: header followed by the interleaved samples. */
  function Encode(b: PcmBuffer): (w: seq<byte>)
    ensures |w| == FileLength(b)
  {
    var d := DataBytes(b.channels, b.length);
    Header(|b.channels|, b.sampleRate, |d| + HEADER_SIZE) + d
  }

  /** Sample `k` of frame `i`, the `j`-th of the data section with `j = i * C + k`, sits at byte `2 * j`. */
  lemma {:induction false} SampleLayout(chs: seq<seq<real>>, n: nat, i: nat, k: nat, j: nat)
    requires forall c :: 0 <= c < |chs| ==> n <= |chs[c]|
    requires i < n && k < |chs| && j == i * |chs| + k
    ensures 2 * j + 2 <= |DataBytes(chs, n)|
    ensures I16At(DataBytes(chs, n), 2 * j) == Quantise(chs[k][i])
  {
    var C := |chs|;
    var prev := DataBytes(chs, n - 1);
    var frame := FrameBytes(chs, n - 1, C);
    NextFrame(n, C);
    assert DataBytes(chs, n) == prev + frame;
    if i < n - 1 {
      SampleLayout(chs, n - 1, i, k, j);
      I16AtLeft(prev, frame, 2 * j);
    } else {
      LastFrameOffset(i, n, C, k);
      I16AtRight(prev, frame, 2 * k);
    }
  }

  lemma LastFrameOffset(i: nat, n: nat, c: nat, k: nat)
    requires i + 1 == n
    ensures 2 * (i * c + k) == (n - 1) * c * 2 + 2 * k
  {
  }

  /** The bytes of `n` frames are those of `n - 1` frames and one more. */
  lemma NextFrame(n: nat, c: nat)
    requires n >= 1
    ensures n * c * 2 == (n - 1) * c * 2 + 2 * c
  {
  }

  /** The four numeric tags the encoder writes are the ASCII chunk names. */
  lemma RiffTags()
    ensures LE32(0x46464952) == Ascii("RIFF") && LE32(0x45564157) == Ascii("WAVE")
  {
    assert Ascii("RIFF") == [0x52, 0x49, 0x46, 0x46];
    assert Ascii("WAVE") == [0x57, 0x41, 0x56, 0x45];
  }

  lemma FmtTag()
    ensures LE32(0x20746d66) == Ascii("fmt ")
  {
    assert Ascii("fmt ") == [0x66, 0x6d, 0x74, 0x20];
  }

  lemma DataTag()
    ensures LE32(0x61746164) == Ascii("data")
  {
    assert Ascii("data") == [0x64, 0x61, 0x74, 0x61];
  }

  lemma RiffHeaderFields(length: int)
    ensures var h := RiffHeader(length);
            h[0..4] == Ascii("RIFF") && U32At(h, 4) == (length - 8) % U32_RANGE && h[8..12] == Ascii("WAVE")
  {
    RiffTags();
    var h := RiffHeader(length);
    var p0, p1, p2 := LE32(0x46464952), LE32(length - 8), LE32(0x45564157);
    assert h[0..4] == p0 && h[4..8] == p1 && h[8..12] == p2;
    assert U32At(h, 4) == U32At(p1, 0);
  }

  lemma FmtChunkFields(numOfChan: nat, sampleRate: nat)
    ensures var h := FmtChunk(numOfChan, sampleRate);
            && h[0..4] == Ascii("fmt ")
            && U32At(h, 4) == 16
            && U16At(h, 8) == 1
            && U16At(h, 10) == numOfChan % U16_RANGE
            && U32At(h, 12) == sampleRate % U32_RANGE
            && U32At(h, 16) == (sampleRate * 2 * numOfChan) % U32_RANGE
            && U16At(h, 20) == (2 * numOfChan) % U16_RANGE
            && U16At(h, 22) == 16
  {
    FmtTag();
    var h := FmtChunk(numOfChan, sampleRate);
    var p0, p1, p2, p3 := LE32(0x20746d66), LE32(16), LE16(1), LE16(numOfChan);
    var p4, p5, p6, p7 := LE32(sampleRate), LE32(sampleRate * 2 * numOfChan), LE16(numOfChan * 2), LE16(16);
    assert h == p0 + p1 + p2 + p3 + p4 + p5 + p6 + p7;
    assert h[0..4] == p0;
    assert U32At(h, 4) == U32At(p1, 0);
    assert U16At(h, 8) == U16At(p2, 0);
    assert U16At(h, 10) == U16At(p3, 0);
    assert U32At(h, 12) == U32At(p4, 0);
    assert U32At(h, 16) == U32At(p5, 0);
    assert U16At(h, 20) == U16At(p6, 0);
    assert U16At(h, 22) == U16At(p7, 0);
  }

  lemma DataChunkHeaderFields(length: int)
    ensures var h := DataChunkHeader(length);
            h[0..4] == Ascii("data") && U32At(h, 4) == (length - HEADER_SIZE) % U32_RANGE
  {
    DataTag();
    var h := DataChunkHeader(length);
    assert h[0..4] == LE32(0x61746164);
    assert U32At(h, 4) == U32At(LE32(length - 40 - 4), 0);
  }

  /** What the header declares, field by field, at its fixed offsets. */
  lemma HeaderFields(numOfChan: nat, sampleRate: nat, length: int)
    ensures var h := Header(numOfChan, sampleRate, length);
            && h[0..4] == Ascii("RIFF")
            && U32At(h, 4) == (length - 8) % U32_RANGE
            && h[8..12] == Ascii("WAVE")
            && h[12..16] == Ascii("fmt ")
            && U32At(h, 16) == 16
            && U16At(h, 20) == 1
            && U16At(h, 22) == numOfChan % U16_RANGE
            && U32At(h, 24) == sampleRate % U32_RANGE
            && U32At(h, 28) == (sampleRate * 2 * numOfChan) % U32_RANGE
            && U16At(h, 32) == (2 * numOfChan) % U16_RANGE
            && U16At(h, 34) == 16
            && h[36..40] == Ascii("data")
            && U32At(h, 40) == (length - HEADER_SIZE) % U32_RANGE
  {
    var r, f, d := RiffHeader(length), FmtChunk(numOfChan, sampleRate), DataChunkHeader(length);
    RiffHeaderFields(length);
    FmtChunkFields(numOfChan, sampleRate);
    DataChunkHeaderFields(length);
    ChunkOffsets(r, f, d);
  }

  /** Where the fields of the three header parts land once they are concatenated. */
  lemma ChunkOffsets(r: seq<byte>, f: seq<byte>, d: seq<byte>)
    requires |r| == 12 && |f| == 24 && |d| == 8
    ensures var h := r + f + d;
            && h[0..4] == r[0..4] && h[8..12] == r[8..12] && h[12..16] == f[0..4] && h[36..40] == d[0..4]
            && U32At(h, 4) == U32At(r, 4)
            && U32At(h, 16) == U32At(f, 4)
            && U16At(h, 20) == U16At(f, 8)
            && U16At(h, 22) == U16At(f, 10)
            && U32At(h, 24) == U32At(f, 12)
            && U32At(h, 28) == U32At(f, 16)
            && U16At(h, 32) == U16At(f, 20)
            && U16At(h, 34) == U16At(f, 22)
            && U32At(h, 40) == U32At(d, 4)
  {
  }

  /** A canonical file read back: channel count, sample rate, frame count and the interleaved int16 samples. */
  datatype WavInfo = WavInfo(channels: nat, sampleRate: nat, frames: nat, data: seq<int>)

  /**
   * The 44-byte header of a canonical 16-bit PCM file whose data chunk holds
   * `dataSize` bytes (the byte-rate field is not checked).
   */
  predicate CanonicalHeader(h: seq<byte>, dataSize: nat)
    requires |h| == HEADER_SIZE
  {
    var numOfChan := U16At(h, 22);
    && h[0..4] == Ascii("RIFF") && U32At(h, 4) == dataSize + 36
    && h[8..12] == Ascii("WAVE") && h[12..16] == Ascii("fmt ") && U32At(h, 16) == 16
    && U16At(h, 20) == 1 && numOfChan >= 1
    && U16At(h, 32) == 2 * numOfChan && U16At(h, 34) == 16
    && h[36..40] == Ascii("data") && U32At(h, 40) == dataSize
    && dataSize % (2 * numOfChan) == 0
  }

  /** Euclidean division of an exact multiple. */
  lemma DivExact(x: int, d: int, m: int)
    requires d > 0 && x == d * m
    ensures x / d == m && x % d == 0
  {
    var q, r := x / d, x % d;
    assert x == d * q + r && 0 <= r < d;
    assert d * (m - q) == r;
    if m - q >= 1 {
      MulMono(1, m - q, d);
    } else if m - q <= -1 {
      MulMono(1, q - m, d);
    }
  }

  lemma WholeFrames(dataSize: nat, numOfChan: nat)
    requires numOfChan >= 1 && dataSize % (2 * numOfChan) == 0
    ensures dataSize % 2 == 0 && (dataSize / 2) / numOfChan * numOfChan == dataSize / 2
  {
    var m := dataSize / (2 * numOfChan);
    assert dataSize == (2 * numOfChan) * m + dataSize % (2 * numOfChan);
    assert dataSize == 2 * (numOfChan * m);
    DivExact(dataSize, 2, numOfChan * m);
    DivExact(numOfChan * m, numOfChan, m);
  }

  /** A reader for the files `Encode` writes: `None` for anything that is not a canonical 16-bit PCM file. */
  function Parse(w: seq<byte>): (r: Option<WavInfo>)
    ensures r.Some? ==> r.value.channels >= 1
    ensures r.Some? ==> |r.value.data| == r.value.frames * r.value.channels
    ensures r.Some? ==> |w| == HEADER_SIZE + 2 * |r.value.data|
  {
    if |w| < HEADER_SIZE || !CanonicalHeader(w[..HEADER_SIZE], |w| - HEADER_SIZE) then None
    else
      var h := w[..HEADER_SIZE];
      var numOfChan := U16At(h, 22);
      WholeFrames(|w| - HEADER_SIZE, numOfChan);
      var words := (|w| - HEADER_SIZE) / 2;
      Some(WavInfo(numOfChan, U32At(h, 24), words / numOfChan,
                   seq(words, k requires 0 <= k < words => I16At(w, HEADER_SIZE + 2 * k))))
  }

  /** The samples read back are the int16 words after the header, in order. */
  lemma ParsedData(w: seq<byte>)
    requires Parse(w).Some?
    ensures var data := Parse(w).value.data;
            forall j :: 0 <= j < |data| ==> data[j] == I16At(w, HEADER_SIZE + 2 * j)
  {
  }

  /** Sample `k` of frame `i` of a file read back. */
  function Sample(info: WavInfo, i: nat, k: nat): int
    requires |info.data| == info.frames * info.channels
    requires i < info.frames && k < info.channels
  {
    FrameIndex(i, k, info.frames, info.channels);
    info.data[i * info.channels + k]
  }

  /**
   * The buffers for which no header field that `Parse` reads wraps around:
   * the rate and channel fields always fit, so only the file length matters.
   */
  predicate Fits(b: PcmBuffer)
  {
    FileLength(b) < U32_RANGE
  }

  /**
   * Reading back what the encoder wrote recovers the channel count, the sample
   * rate, the frame count and every sample, quantised.
   */
  lemma {:induction false} ParseEncode(b: PcmBuffer)
    requires Fits(b)
    ensures Parse(Encode(b)).Some?
    ensures var info := Parse(Encode(b)).value;
            && info.channels == |b.channels|
            && info.sampleRate == b.sampleRate
            && info.frames == b.length
            && forall i, k :: 0 <= i < b.length && 0 <= k < |b.channels| ==>
                 Sample(info, i, k) == Quantise(b.channels[k][i])
  {
    var C, n := |b.channels|, b.length;
    var w := Encode(b);
    EncodedHeaderInfo(b);
    var info := Parse(w).value;
    ParsedData(w);
    forall i, k | 0 <= i < n && 0 <= k < C
      ensures Sample(info, i, k) == Quantise(b.channels[k][i])
    {
      FrameIndex(i, k, n, C);
      var j := i * C + k;
      EncodedSample(b, i, k, j);
      ReadBack(w, info, i, k, j);
    }
  }

  lemma EncodedHeaderInfo(b: PcmBuffer)
    requires Fits(b)
    ensures Parse(Encode(b)).Some?
    ensures var info := Parse(Encode(b)).value;
            info.channels == |b.channels| && info.sampleRate == b.sampleRate && info.frames == b.length
  {
    EncodedHeader(b);
    ParseCanonical(Encode(b), |b.channels|, b.sampleRate, b.length);
  }

  /** A file that starts with the header for its own length and holds whole frames parses. */
  lemma ParseCanonical(w: seq<byte>, numOfChan: nat, sampleRate: nat, frames: nat)
    requires |w| >= HEADER_SIZE && w[..HEADER_SIZE] == Header(numOfChan, sampleRate, |w|)
    requires numOfChan >= 1 && 2 * numOfChan < U16_RANGE && sampleRate < U32_RANGE && |w| < U32_RANGE
    requires |w| - HEADER_SIZE == frames * numOfChan * 2
    ensures Parse(w).Some?
    ensures var info := Parse(w).value;
            info.channels == numOfChan && info.sampleRate == sampleRate && info.frames == frames
  {
    FrameCount(|w| - HEADER_SIZE, numOfChan, frames);
    HeaderIsCanonical(w[..HEADER_SIZE], numOfChan, sampleRate, |w|);
    ParseFrames(w, numOfChan, frames);
  }

  /** A data section of `frames` whole frames of `numOfChan` int16 samples. */
  lemma FrameCount(dataSize: nat, numOfChan: nat, frames: nat)
    requires numOfChan >= 1 && dataSize == frames * numOfChan * 2
    ensures dataSize % (2 * numOfChan) == 0 && (dataSize / 2) / numOfChan == frames
  {
    assert dataSize == (2 * numOfChan) * frames;
    DivExact(dataSize, 2 * numOfChan, frames);
    assert dataSize == 2 * (numOfChan * frames);
    DivExact(dataSize, 2, numOfChan * frames);
    DivExact(numOfChan * frames, numOfChan, frames);
  }

  lemma ParseFrames(w: seq<byte>, numOfChan: nat, frames: nat)
    requires |w| >= HEADER_SIZE && CanonicalHeader(w[..HEADER_SIZE], |w| - HEADER_SIZE)
    requires U16At(w[..HEADER_SIZE], 22) == numOfChan && ((|w| - HEADER_SIZE) / 2) / numOfChan == frames
    ensures Parse(w).Some? && Parse(w).value.frames == frames
  {
  }

  /** Sample `k` of frame `i`, the `j`-th of the file with `j = i * C + k`, is the int16 at byte `44 + 2 * j`. */
  lemma EncodedSample(b: PcmBuffer, i: nat, k: nat, j: nat)
    requires i < b.length && k < |b.channels| && j == i * |b.channels| + k
    ensures HEADER_SIZE + 2 * j + 2 <= |Encode(b)|
    ensures I16At(Encode(b), HEADER_SIZE + 2 * j) == Quantise(b.channels[k][i])
  {
    EncodedData(b);
    SampleLayout(b.channels, b.length, i, k, j);
    I16AtDrop(Encode(b), HEADER_SIZE, 2 * j);
  }

  /** A read-back file whose words are those of `w` holds, at sample `k` of frame `i`, the `j`-th int16 word of `w`. */
  lemma ReadBack(w: seq<byte>, info: WavInfo, i: nat, k: nat, j: nat)
    requires |info.data| == info.frames * info.channels && i < info.frames && k < info.channels
    requires j == i * info.channels + k && |w| == HEADER_SIZE + 2 * |info.data|
    requires forall j :: 0 <= j < |info.data| ==> info.data[j] == I16At(w, HEADER_SIZE + 2 * j)
    ensures HEADER_SIZE + 2 * j + 2 <= |w|
    ensures Sample(info, i, k) == I16At(w, HEADER_SIZE + 2 * j)
  {
    FrameIndex(i, k, info.frames, info.channels);
  }

  /** The file starts with the header for its own length. */
  lemma EncodedHeader(b: PcmBuffer)
    ensures Encode(b)[..HEADER_SIZE] == Header(|b.channels|, b.sampleRate, |Encode(b)|)
  {
    var d := DataBytes(b.channels, b.length);
    var h := Header(|b.channels|, b.sampleRate, |d| + HEADER_SIZE);
    assert Encode(b) == h + d;
    assert (h + d)[..HEADER_SIZE] == h;
  }

  /** After the header come exactly the data bytes. */
  lemma EncodedData(b: PcmBuffer)
    ensures Encode(b)[HEADER_SIZE..] == DataBytes(b.channels, b.length)
  {
    var d := DataBytes(b.channels, b.length);
    var h := Header(|b.channels|, b.sampleRate, |d| + HEADER_SIZE);
    assert Encode(b) == h + d;
    assert (h + d)[HEADER_SIZE..] == d;
  }

  lemma HeaderIsCanonical(h: seq<byte>, numOfChan: nat, sampleRate: nat, length: int)
    requires h == Header(numOfChan, sampleRate, length)
    requires numOfChan >= 1 && 2 * numOfChan < U16_RANGE && sampleRate < U32_RANGE
    requires HEADER_SIZE <= length < U32_RANGE && (length - HEADER_SIZE) % (2 * numOfChan) == 0
    ensures CanonicalHeader(h, length - HEADER_SIZE)
    ensures U16At(h, 22) == numOfChan && U32At(h, 24) == sampleRate
  {
    HeaderFields(numOfChan, sampleRate, length);
    CanonicalFromFields(h, numOfChan, sampleRate, length - HEADER_SIZE);
  }

  lemma CanonicalFromFields(h: seq<byte>, numOfChan: nat, sampleRate: nat, dataSize: nat)
    requires |h| == HEADER_SIZE && numOfChan >= 1
    requires sampleRate < U32_RANGE && 2 * numOfChan < U16_RANGE
    requires dataSize + HEADER_SIZE < U32_RANGE && dataSize % (2 * numOfChan) == 0
    requires && h[0..4] == Ascii("RIFF")
             && U32At(h, 4) == (dataSize + 36) % U32_RANGE
             && h[8..12] == Ascii("WAVE")
             && h[12..16] == Ascii("fmt ")
             && U32At(h, 16) == 16
             && U16At(h, 20) == 1
             && U16At(h, 22) == numOfChan % U16_RANGE
             && U32At(h, 24) == sampleRate % U32_RANGE
             && U16At(h, 32) == (2 * numOfChan) % U16_RANGE
             && U16At(h, 34) == 16
             && h[36..40] == Ascii("data")
             && U32At(h, 40) == dataSize % U32_RANGE
    ensures CanonicalHeader(h, dataSize) && U16At(h, 22) == numOfChan && U32At(h, 24) == sampleRate
  {
    SmallMod(dataSize + 36, U32_RANGE);
    SmallMod(dataSize, U32_RANGE);
    SmallMod(numOfChan, U16_RANGE);
    SmallMod(2 * numOfChan, U16_RANGE);
    SmallMod(sampleRate, U32_RANGE);
  }

  lemma SmallMod(x: int, m: int)
    requires 0 <= x < m
    ensures x % m == x
  {
  }
}

=== FILE: wrappers.dfy ===
/** Option and Result: the model's stand-ins for `T | null` and for a call that can throw. */
module Wrappers {

  /** `Some(v)` for a present value, `None` for JavaScript's `null`. */
  datatype Option<+T> = None | Some(value: T)

  /** `Success(v)` for a normal return, `Failure(e)` for a thrown exception. */
  datatype Result<+T, +E> = Success(value: T) | Failure(error: E)
}
